=== FILE: README.md ===
# Barbershop web client: a verified model of its session store, route guards and page logic

The barbershop web client is a React single-page application. Clients book
haircut slots with it, and the shop owner manages bookings, blocked time and
the business profile. Availability, slots and statuses come from a REST
backend. The client's own logic is:

- a session store that keeps the signed-in user and bearer token in memory
  and in two slots of the browser's durable key/value storage;
- two route guards, a default redirect and a route table with role
  requirements;
- small decision functions and form rules inside the pages.

This project models that logic in Dafny and proves what it promises.

- Network calls are parameters: every request's reply is an `Outcome`,
  either `Ok(payload)` or `Fail(thrown)`.
- The clock is a parameter: today's date, or the local calendar day of an
  instant.
- Each operation is one atomic step from a state and its inputs to the new
  state, the navigation and the request it sends.

Modules, one per source area:

| file | module | models |
|---|---|---|
| types.dfy | `Types` | the records of `src/api/types.ts`; JavaScript truthiness of optional text |
| failures.dfy | `Failures` | thrown values and the three message-precedence rules the pages use |
| text.dfy | `Text` | `trim`, `\s`, ASCII case mapping, `split`/`join`, `indexOf`, `split(/\s+/).filter(Boolean)`, string `<` |
| dates.dfy | `Dates` | `String(n)`, `padStart(2, "0")`, the `YYYY-MM-DD` key (ISO 8601:2004 section 4.1.2.2, calendar date, extended format) and `HH:MM` times |
| codec.dfy | `Codec` | the stored text form of a user: a total decoder that undoes the encoder |
| session.dfy | `SessionStore` | `src/context/AuthContext.tsx` |
| routes.dfy | `Routes` | `src/routes/ProtectedRoute.tsx`, `OwnerRoute.tsx`, `AppRoutes.tsx` |
| auth_pages.dfy | `AuthPages` | the login, register, verify-email and verify-phone pages |
| client_pages.dfy | `ClientPages` | the new-booking and my-bookings pages |
| owner_bookings.dfy | `OwnerBookings` | the owner's agenda: `capitalizeWords`, grouping by day, status actions, badges, filters |
| owner_blocks.dfy | `OwnerBlocks` | the blocked-time page |
| owner_profile.dfy | `OwnerProfile` | the owner's profile page |
| layouts.dfy | `Layouts` | the owner and client page shells |

Main results:

- **Storage mirroring.** Whatever sequence of store operations follows
  start-up, memory and storage agree (`SessionStore.RunKeepsMirrored`). A
  reload restores exactly the session held in memory.
- **Route decisions.** Every path settles within two redirects. Once loading
  is over it settles on a rendered page, so there is no redirect loop
  (`Routes.Settles`). The guard's precedence is loading, then sign-in, then
  role.
- **Grouping by day.** `groupBookingsByDate` puts every booking in exactly
  one group for its day. Inside a group, bookings keep their input order.
  Group keys are distinct and the groups come out in ascending calendar
  order, which is also the string order of the keys.
- **Status machine.** The owner's status machine always moves forward: a
  booking changes status at most twice.
- **Whitespace words.** The pieces of `split(/\s+/).filter(Boolean)` are
  determined by three equations: a leading whitespace character adds no
  piece, a whitespace-free text is one piece, and a whitespace-free run
  followed by whitespace is split off in front of the rest's pieces
  (`Text.WordsSkipSpace`, `Text.WordsOfRun`, `Text.WordsCons`). The owner's
  avatar initials are the first characters of the first two pieces.
- **E-mail check.** The computed check is exactly the language of
  `/^[^\s@]+@[^\s@]+\.[^\s@]+$/`.

## Model

| member | source | states |
|---|---|---|
| Types.ParseStatus | src/api/types.ts:5 | reading a status back: a result spells the raw text; no result means no status spells it |
| Types.StatusTextRoundTrip | src/api/types.ts:5 | every status's wire spelling parses back to that status, so the four spellings are distinct |
| Failures.ErrorMessage | src/pages/auth/LoginPage.tsx:47-51 | `err instanceof Error ? err.message : fallback`: an `Error` shows its message, anything else the fallback |
| Failures.DisplayMessage | src/pages/auth/VerifyPhonePage.tsx:49-59 | error precedence: the server's non-empty message, then the `Error` message, then the fallback |
| Failures.ServerMessageOr | src/pages/owner/OwnerDisabledSlotsPage.tsx:41-44 | the server's non-empty message, else the fallback; an `Error` message is never shown |
| Text.Trim | src/pages/client/MyBookingsPage.tsx:53 | the trimmed text has no surrounding whitespace, is no longer than the input, and is empty exactly when the input is blank |
| Text.TrimTrimmed | src/pages/client/MyBookingsPage.tsx:53 | trimming a text without surrounding whitespace returns it unchanged |
| Text.TrimMiddle | src/pages/client/MyBookingsPage.tsx:53 | for any split of a text into a blank prefix, a middle without surrounding whitespace and a blank suffix, `trim` returns exactly that middle |
| Text.IndexOf | src/pages/client/MyBookingsPage.tsx:49 | `indexOf`: -1 exactly when the character is absent, else the position of its first occurrence |
| Text.Split | src/pages/owner/OwnerBookingsPage.tsx:43 | `split` yields at least one part and no part contains the separator |
| Text.JoinSplit | src/pages/owner/OwnerBookingsPage.tsx:43-45 | joining the parts of a split with the same separator gives back the text |
| Text.SplitJoin | src/pages/owner/OwnerBookingsPage.tsx:43-45 | splitting a join of separator-free parts gives back the parts |
| Text.SplitLower | src/pages/owner/OwnerBookingsPage.tsx:42-43 | lower-casing before or after splitting at a non-letter gives the same parts |
| Text.Words | src/pages/owner/OwnerProfilePage.tsx:82 | `split(/\s+/).filter(Boolean)`: no more pieces than characters; the pieces are pinned down by Text.WordsSkipSpace, Text.WordsOfRun and Text.WordsCons below |
| Text.WordsAreWords | src/pages/owner/OwnerProfilePage.tsx:82 | every piece of `split(/\s+/).filter(Boolean)` is non-empty and starts with a non-space |
| Text.WordsOfBlank | src/pages/owner/OwnerProfilePage.tsx:82 | a text has no words exactly when it is blank |
| Text.FirstWordStart | src/pages/owner/OwnerProfilePage.tsx:82-83 | the first word starts at the first non-whitespace character |
| Text.WordsHaveNoSpace | src/pages/owner/OwnerProfilePage.tsx:82 | no piece of `split(/\s+/).filter(Boolean)` contains a whitespace character |
| Text.WordsSkipSpace | src/pages/owner/OwnerProfilePage.tsx:82 | a leading whitespace character contributes no piece |
| Text.WordsOfRun | src/pages/owner/OwnerProfilePage.tsx:82 | a whitespace-free text is one piece, or none when it is empty |
| Text.WordsCons | src/pages/owner/OwnerProfilePage.tsx:82 | a whitespace-free run, a whitespace character and a rest give the run's pieces followed by the rest's pieces; with the two rows above this determines every split |
| Text.WordsOfTwo | src/pages/owner/OwnerProfilePage.tsx:82 | two whitespace-free runs around a whitespace character split into exactly those two pieces |
| Dates.ValueFixed | src/pages/client/NewBookingPage.tsx:16-17 | a zero-padded fixed-width numeral reads back as its number |
| Dates.PadIsFixed | src/pages/client/NewBookingPage.tsx:16-17 | `String(n).padStart(2, "0")` for n below 100 is the two-digit numeral of n |
| Dates.FixedOrder | src/pages/owner/OwnerBookingsPage.tsx:85-87 | fixed-width numerals compare as strings exactly as their numbers compare |
| Dates.DateKeyFixed | src/pages/client/NewBookingPage.tsx:14-19 | with a four-digit year, the key is four-digit year, two-digit month from 1 and two-digit day, joined by dashes |
| Dates.KeyRoundTrip | src/pages/client/NewBookingPage.tsx:14-19 | with a four-digit year, the key is ten characters and reads back as (year, month + 1, day) |
| Dates.KeyOrder | src/pages/owner/OwnerBookingsPage.tsx:84-95 | with four-digit years, string order of keys is calendar order of the dates |
| Dates.KeyInjective | src/pages/owner/OwnerBookingsPage.tsx:84-89 | two valid dates get the same key exactly when they are the same date |
| Dates.TimeOrder | src/pages/owner/OwnerDisabledSlotsPage.tsx:65 | string order of `HH:MM` times is the order of minutes since midnight |
| Codec.ReadEscaped | src/context/AuthContext.tsx:47 | an escaped field followed by its terminator reads back as the field and the remaining text |
| Codec.ParseSerialize | src/context/AuthContext.tsx:47 | parsing a serialised field list gives back the list |
| Codec.DecodeEncode | src/context/AuthContext.tsx:47 | a stored user reads back as the same user |
| Codec.UnterminatedRejected | src/context/AuthContext.tsx:10-14 | a non-empty text without a field terminator (such as `undefined`) does not decode |
| SessionStore.SafeJsonParse | src/context/AuthContext.tsx:8-16 | a missing or empty value gives nothing; a result is always the decoding of the text; it never fails |
| SessionStore.SafeParseEncoded | src/context/AuthContext.tsx:8-16 | `safeJSONParse` of an encoded user gives that user |
| SessionStore.Hydrate | src/context/AuthContext.tsx:34-37 | the initial state is loading, holds the raw stored token, and agrees with storage |
| SessionStore.Mount | src/context/AuthContext.tsx:40-42 | the mount effect ends loading and changes nothing else |
| SessionStore.SetAuth | src/context/AuthContext.tsx:44-50 | memory holds (user, token); the user slot holds the encoded user and the token slot the raw token; other keys untouched; memory mirrors storage; signed in exactly when the token is non-empty |
| SessionStore.Login | src/context/AuthContext.tsx:52-63 | always sends the credentials; a failed call or an incomplete reply throws and leaves the state as it was; it succeeds exactly for a complete reply and then equals `setAuth` |
| SessionStore.Logout | src/context/AuthContext.tsx:65-70 | user and token cleared, both slots removed, other keys untouched, signed out, memory mirrors storage |
| SessionStore.UpdateUser | src/context/AuthContext.tsx:72-75 | replaces the user and its slot; the token and its slot are unchanged; agreement with storage is kept |
| SessionStore.VerifyPhone | src/context/AuthContext.tsx:80-91 | without a phone it throws and sends nothing; otherwise it sends the user's phone; on success the user changes only in `phoneVerified`; on failure nothing changes |
| SessionStore.StoreReplyUser | src/context/AuthContext.tsx:104-106 | after writing the reply's user (or `undefined`), reading the slot back gives exactly the reply's user |
| SessionStore.VerifyEmail | src/context/AuthContext.tsx:96-107 | without an e-mail it throws and sends nothing; on success the user becomes exactly the server's; token untouched; agreement with storage kept |
| SessionStore.RunKeepsMirrored | src/context/AuthContext.tsx:34-107 | after start-up, any sequence of store operations keeps memory and storage in agreement |
| SessionStore.LoadingEndsOnce | src/context/AuthContext.tsx:37-42 | once mounted, no operation sets loading again |
| SessionStore.ReloadRestores | src/context/AuthContext.tsx:34-36 | re-reading agreeing storage reproduces the user and token in memory |
| SessionStore.ReloadAfterSetAuth | src/context/AuthContext.tsx:44-50 | after `setAuth`, a reload brings back exactly that user and token |
| SessionStore.TokenWithoutUser | src/context/AuthContext.tsx:34-36 | a stored token beside a user slot that is missing or does not parse gives a session that holds the token, has no user and is not signed in under the `isAuthenticated` rule of line 112 |
| SessionStore.TokenWithUndefinedUser | src/context/AuthContext.tsx:34-36 | the same for a user slot holding the text `undefined` |
| SessionStore.LogoutIdempotent | src/context/AuthContext.tsx:65-70 | logging out twice equals logging out once |
| Routes.ViewOf | src/context/AuthContext.tsx:112 | `isAuthenticated` is a non-empty token together with a user |
| Routes.ProtectedRoute | src/routes/ProtectedRoute.tsx:11-36 | loading gives the spinner; then no sign-in gives `/login`; then a disallowed role gives `/owner` for an owner, else `/app/new-booking`; it renders exactly when signed in and the role is allowed or no roles are declared |
| Routes.OwnerRoute | src/routes/OwnerRoute.tsx:9-22 | no user gives `/login`; a non-owner gives `/app/new-booking`; it renders exactly for an owner |
| Routes.HomeRedirect | src/routes/AppRoutes.tsx:32-42 | always redirects: a signed-in user to `/owner` or `/app` by role, anyone else to `/login` |
| Routes.AccessOf | src/routes/AppRoutes.tsx:49-108 | the four auth pages are public; the verify pages need a session; `/app` needs CLIENT; `/owner` needs OWNER; `/` and `*` use the default redirect |
| Routes.MismatchTargetRenders | src/routes/ProtectedRoute.tsx:29-33 | a signed-in user sent away for a role mismatch lands on a page that role may enter |
| Routes.LandingConverges | src/routes/AppRoutes.tsx:83 | the default redirect's `/app` reaches the guard's `/app/new-booking` in one hop through the index redirect |
| Routes.Settles | src/routes/AppRoutes.tsx:47-109 | every path settles within two redirects; once loading is over it settles on a rendered page |
| Routes.OwnerRouteVersusGuard | src/routes/OwnerRoute.tsx:9-22 | once loading is over, `OwnerRoute` and the OWNER guard disagree exactly for a user without a valid token |
| Routes.EmptyRoleListRedirects | src/routes/ProtectedRoute.tsx:29 | an empty role list is truthy and sends every signed-in user away |
| Routes.FreshStartGoesToLogin | src/routes/ProtectedRoute.tsx:25-27 | with empty storage and after mount, every non-public page redirects to `/login` |
| Routes.OwnerLoginScenario | src/context/AuthContext.tsx:52-63 | after an owner's successful login, `/owner` renders and the client area redirects to `/owner` |
| AuthPages.LoginRedirect | src/pages/auth/LoginPage.tsx:18-23 | a visitor is sent on exactly when signed in with a user: `/owner` for an owner, else `/app` |
| AuthPages.LoginRedirectSettles | src/pages/auth/LoginPage.tsx:18-23 | the login page's redirect target renders within one hop, so the page does not bounce |
| AuthPages.BeginLogin | src/pages/auth/LoginPage.tsx:30-33 | submitting clears the error and disables the button |
| AuthPages.SubmitLogin | src/pages/auth/LoginPage.tsx:30-55 | the button is re-enabled; navigation happens exactly on a complete login, to the stored user's landing page; a failure shows the `Error` message or the fallback with the session unchanged; the typed credential and password are kept |
| AuthPages.EnterVerifyEmail | src/pages/auth/VerifyEmailPage.tsx:28-29 | the page starts with an empty code, no messages, not busy and no code requested, remembering whether it came from registration |
| AuthPages.AutoRequest | src/pages/auth/VerifyEmailPage.tsx:33-53 | a code is requested exactly when not from registration, not yet requested, and the user has an unverified e-mail; the flag is then set and the requesting state cleared; the code, messages and busy flag are kept |
| AuthPages.AtMostOneAutoRequest | src/pages/auth/VerifyEmailPage.tsx:29-42 | over any number of effect re-runs, at most one code is requested per mount |
| AuthPages.NoAutoRequestAfterRegister | src/pages/auth/VerifyEmailPage.tsx:35-36 | arriving from registration, no code is ever auto-requested |
| AuthPages.SubmitVerifyEmail | src/pages/auth/VerifyEmailPage.tsx:55-74 | navigation happens exactly when the user has an e-mail and the code is accepted, to the landing page of the user the page had; failures show the message or the fallback with the session unchanged; the code, the requesting state and both auto-request flags are kept |
| AuthPages.ResendEmailCode | src/pages/auth/VerifyEmailPage.tsx:76-90 | the resend shows the success text or the error, never both, and ends not requesting; the code, the busy flag and both auto-request flags are kept |
| AuthPages.ResendKeepsAutoRequests | src/pages/auth/VerifyEmailPage.tsx:76-90 | a resend never re-arms the automatic request: any later run of the effect asks for codes exactly as often as without the resend |
| AuthPages.AutoRequestsByFlags | src/pages/auth/VerifyEmailPage.tsx:33-53 | the effect depends only on the two flags and the user: states agreeing on the flags request equally often over any run |
| AuthPages.RequestPhoneCode | src/pages/auth/VerifyPhonePage.tsx:20-39 | without a phone it only sets the error and sends nothing; otherwise it sends exactly the user's phone; success shows the server text or the default; the typed code is kept |
| AuthPages.SkipPhone | src/pages/auth/VerifyPhonePage.tsx:150-154 | the skip button goes to `/owner` exactly for an owner, else `/app` |
| AuthPages.ConfirmPhone | src/pages/auth/VerifyPhonePage.tsx:41-77 | navigation happens exactly when the phone exists and the code is accepted, to the same target as skipping; errors follow server, then `Error`, then "Código inválido"; the typed code is kept |
| AuthPages.ChangeField | src/pages/auth/RegisterPage.tsx:57-60 | the named field takes the value and every other field keeps its own |
| AuthPages.EmailValid | src/pages/auth/RegisterPage.tsx:67 | the computed check accepts exactly the texts matching `/^[^\s@]+@[^\s@]+\.[^\s@]+$/` |
| AuthPages.EmailValidSound | src/pages/auth/RegisterPage.tsx:67 | splitting at the first `@` and finding an inner dot of the domain decides the pattern, both ways |
| AuthPages.SubmitRegister | src/pages/auth/RegisterPage.tsx:62-86 | a request is built exactly for a matching e-mail; it copies name, username, e-mail and password; the phone is included, untrimmed, exactly when it is not blank |
| AuthPages.RegisterSucceeded | src/pages/auth/RegisterPage.tsx:29-42 | the session is set only when the reply has a token and a user; navigation always goes to `/verify-email`, replacing, marked as from registration |
| AuthPages.RegisterFailed | src/pages/auth/RegisterPage.tsx:43-54 | the server's message first, then the `Error` message, then "Error al registrar" |
| AuthPages.RegisterThenNoAutoRequest | src/pages/auth/RegisterPage.tsx:35-41 | after registering, the e-mail page requests no further code whatever user it sees |
| ClientPages.OpenBookingForm | src/pages/client/NewBookingPage.tsx:26-33 | the form opens on today's key, which reads back as today, with everything else empty |
| ClientPages.SubmitBooking | src/pages/client/NewBookingPage.tsx:96-105 | a request is sent exactly with a slot, a service and a verified e-mail; it carries that service and slot, and notes only when non-empty |
| ClientPages.BookingCreated | src/pages/client/NewBookingPage.tsx:54-61 | success clears the slot, notes and error and keeps the date and service |
| ClientPages.BookingFailed | src/pages/client/NewBookingPage.tsx:62-74 | the `EMAIL_NOT_VERIFIED` code becomes its marker, otherwise the message precedence applies; the success text is cleared and the selections kept |
| ClientPages.ChangeDate | src/pages/client/NewBookingPage.tsx:83-88 | changing the date clears the slot and both messages and keeps the service and notes |
| ClientPages.ClickSlot | src/pages/client/NewBookingPage.tsx:90-94 | picking a slot selects it and clears both messages |
| ClientPages.AutoSelectService | src/pages/client/NewBookingPage.tsx:77-81 | the first service is chosen only when none is selected and the list is non-empty; otherwise nothing changes |
| ClientPages.AutoSelectSettles | src/pages/client/NewBookingPage.tsx:77-81 | re-running the effect after it has run changes nothing more |
| ClientPages.OneBookingPerSlotPick | src/pages/client/NewBookingPage.tsx:54-105 | after a booking or a date change nothing can be sent until a slot is picked again; then exactly that slot is sent |
| ClientPages.NoticeOf | src/pages/client/NewBookingPage.tsx:141-154 | no notice for no error, the verification notice exactly for the marker, otherwise the error itself |
| ClientPages.UnverifiedRejectionNotice | src/pages/client/NewBookingPage.tsx:62-74 | a booking rejected with the unverified-e-mail code shows the verification notice, not a plain error (the notice area at lines 141-154) |
| ClientPages.SplitTime | src/pages/client/MyBookingsPage.tsx:47-55 | the time is a space-free prefix ending at the first space; with no space the suffix is empty; the suffix is trimmed and upper-case |
| ClientPages.SplitTimeSuffix | src/pages/client/MyBookingsPage.tsx:49-53 | when there is a space, the suffix is the text after the first space, trimmed and upper-cased |
| ClientPages.SplitTimeJoin | src/pages/client/MyBookingsPage.tsx:47-55 | a time and a normalised suffix joined by a space split back into themselves |
| ClientPages.StatusBadgeClass | src/pages/client/MyBookingsPage.tsx:14-19 | each badge class ends in the status in lower case, the modifier the booking card uses |
| ClientPages.StatusTablesInjective | src/pages/client/MyBookingsPage.tsx:7-19 | different statuses never share a label or a badge class |
| ClientPages.Sections | src/pages/client/MyBookingsPage.tsx:63-85 | exactly one section shows: spinner while loading; the error only when loaded and failed; the empty or list view only when loaded without error |
| OwnerBookings.CapitalizeWords | src/pages/owner/OwnerBookingsPage.tsx:40-45 | length is kept, and the single-space segments of the result are the lower-cased input segments, each capitalised |
| OwnerBookings.CapitalizeIdempotent | src/pages/owner/OwnerBookingsPage.tsx:40-45 | capitalising twice equals capitalising once |
| OwnerBookings.FindGroup | src/pages/owner/OwnerBookingsPage.tsx:89 | the lookup finds the group with the key exactly when one exists |
| OwnerBookings.CollectGroups | src/pages/owner/OwnerBookingsPage.tsx:80-91 | the loop's groups hold, per key, exactly that day's bookings in input order, with distinct keys covering every booking |
| OwnerBookings.InsertKeepsAscending | src/pages/owner/OwnerBookingsPage.tsx:93-95 | inserting a day into strictly ascending groups keeps them ascending |
| OwnerBookings.SortGroups | src/pages/owner/OwnerBookingsPage.tsx:93-95 | the sort is a permutation of the groups |
| OwnerBookings.SortAscending | src/pages/owner/OwnerBookingsPage.tsx:93-95 | groups with distinct days come out in strictly ascending calendar order |
| OwnerBookings.GroupByDate | src/pages/owner/OwnerBookingsPage.tsx:79-96 | the result is a grouping of the bookings by day key, in ascending calendar order |
| OwnerBookings.ReorderedGrouping | src/pages/owner/OwnerBookingsPage.tsx:93-95 | any ascending rearrangement of a grouping is still a grouping |
| OwnerBookings.GroupKeysAscending | src/pages/owner/OwnerBookingsPage.tsx:84-95 | group keys strictly increase as strings |
| OwnerBookings.BookingInOneGroup | src/pages/owner/OwnerBookingsPage.tsx:82-91 | each booking's day has exactly one group |
| OwnerBookings.Actions | src/pages/owner/OwnerBookingsPage.tsx:279-349 | PENDING offers cancel, reschedule and confirm; CONFIRMED offers complete, reschedule and cancel; COMPLETED and CANCELLED offer nothing |
| OwnerBookings.StatusMachine | src/pages/owner/OwnerBookingsPage.tsx:279-349 | a status shows only the badge exactly when it offers no move; the offered moves are exactly the four transitions; each goes forward |
| OwnerBookings.RunsAreShort | src/pages/owner/OwnerBookingsPage.tsx:279-349 | there is no cycle: a booking changes status at most twice |
| OwnerBookings.OwnerStatusLabel | src/pages/owner/OwnerBookingsPage.tsx:102-107 | the owner's labels are the client page's labels |
| OwnerBookings.StatusBadge | src/pages/owner/OwnerBookingsPage.tsx:101-121 | a known status gives its pill class and label; an unknown one gives the base class and the raw text |
| OwnerBookings.FilterParams | src/pages/owner/OwnerBookingsPage.tsx:21-25 | an empty date or status filter is left out; a non-empty one is sent as it is |
| OwnerBlocks.OpenBlockForm | src/pages/owner/OwnerDisabledSlotsPage.tsx:10-23 | the form opens on today with the range 09:00 to 18:00, which passes validation, an empty reason, not full-day, and no messages or open menu |
| OwnerBlocks.SubmitBlock | src/pages/owner/OwnerDisabledSlotsPage.tsx:59-77 | both messages are cleared; a range whose start is not before its end (as strings) is refused; otherwise the request carries the date, times only for a range, and the reason only when non-empty |
| OwnerBlocks.RangeCheckIsClockOrder | src/pages/owner/OwnerDisabledSlotsPage.tsx:65 | for `HH:MM` times, the string check accepts exactly ranges that start earlier in the day |
| OwnerBlocks.ApplyPreset | src/pages/owner/OwnerDisabledSlotsPage.tsx:99-119 | LUNCH is 13:00–14:00 "Almuerzo", BREAK 16:00–16:30 "Pausa", MAINTENANCE the full day with the times untouched; messages cleared |
| OwnerBlocks.PresetsPass | src/pages/owner/OwnerDisabledSlotsPage.tsx:99-119 | every preset yields a form that passes validation and sends its reason |
| OwnerBlocks.FullDayMeansCovers | src/pages/owner/OwnerDisabledSlotsPage.tsx:121-127 | a block counts as full-day exactly when all instants parse and its interval contains every millisecond of the day |
| OwnerBlocks.ToggleMenu | src/pages/owner/OwnerDisabledSlotsPage.tsx:129-131 | toggling closes exactly when that menu is open, otherwise opens that menu |
| OwnerBlocks.ToggleTwice | src/pages/owner/OwnerDisabledSlotsPage.tsx:129-131 | toggling the same menu twice restores the state exactly when no menu, or that menu, was open |
| OwnerBlocks.ToggleTwiceElsewhere | src/pages/owner/OwnerDisabledSlotsPage.tsx:129-131 | with another block's menu open, toggling a menu twice leaves no menu open |
| OwnerBlocks.BlockCreated | src/pages/owner/OwnerDisabledSlotsPage.tsx:34-40 | success resets the reason and full-day flag and clears the error, keeping the times, the date and the open menu |
| OwnerBlocks.BlockCreateFailed | src/pages/owner/OwnerDisabledSlotsPage.tsx:41-44 | failure shows the server's message or the fallback and clears the success text; the date, times, reason, full-day flag and open menu are kept |
| OwnerBlocks.DeleteBlock | src/pages/owner/OwnerDisabledSlotsPage.tsx:48-57 | without confirmation nothing is sent and nothing changes; with it the deletion request names exactly that block's id (the click handler at lines 321-324), a success closes the menu, and a failure shows the server's message or the fallback and keeps every other field |
| OwnerProfile.Initials | src/pages/owner/OwnerProfilePage.tsx:80-86 | the initials are one or two characters with no lower-case letter |
| OwnerProfile.InitialsCount | src/pages/owner/OwnerProfilePage.tsx:82-84 | there are two initials exactly when the name has at least two words |
| OwnerProfile.InitialsOfBlank | src/pages/owner/OwnerProfilePage.tsx:81-83 | an absent, empty or blank name gives "A" |
| OwnerProfile.InitialsFirst | src/pages/owner/OwnerProfilePage.tsx:80-86 | the first initial is the first non-whitespace character of the name, upper-cased |
| OwnerProfile.InitialsOfName | src/pages/owner/OwnerProfilePage.tsx:82-85 | one or two characters with no lower-case letter; with two or more words the second is the second word's first character, upper-cased |
| OwnerProfile.InitialsOfWords | src/pages/owner/OwnerProfilePage.tsx:83-85 | from the word list: "A" without words, otherwise the first word's first character and, when there is a second word, its first character, upper-cased; two characters exactly when there are two or more words |
| OwnerProfile.InitialsOfNameFirst | src/pages/owner/OwnerProfilePage.tsx:82-85 | with at least one word, the first initial is the first word's first character, upper-cased |
| OwnerProfile.InitialsOfTwoWords | src/pages/owner/OwnerProfilePage.tsx:80-86 | a first and a last name around one whitespace character give both first characters, upper-cased |
| OwnerProfile.ProfileDefaults | src/pages/owner/OwnerProfilePage.tsx:55-64 | each field comes from the profile; a missing phone becomes empty, gender MALE, channel WHATSAPP; opt-in holds only for `true`; no birth date survives |
| OwnerProfile.ProfileSubmit | src/pages/owner/OwnerProfilePage.tsx:145-155 | the phone is sent as `null` exactly when blank, else as typed; an empty birth date becomes `null`; the other fields are copied |
| OwnerProfile.SaveLoadedProfile | src/pages/owner/OwnerProfilePage.tsx:55-155 | saving a just-loaded profile sends back its values, with a missing phone as `null` and missing choices as their defaults |
| OwnerProfile.BusinessDefaults | src/pages/owner/OwnerProfilePage.tsx:66-76 | falsy hours and minutes (including 0) become 09:00, 18:00 and 30; present ones are kept |
| OwnerProfile.BusinessDefaultsOverwrite | src/pages/owner/OwnerProfilePage.tsx:66-76 | a loaded record replaces the whole form: the result does not depend on the form held before |
| OwnerProfile.Succeeded | src/pages/owner/OwnerProfilePage.tsx:88-143 | each form's success shows its own text and clears the error; only a password change clears the password fields |
| OwnerProfile.Failed | src/pages/owner/OwnerProfilePage.tsx:95-104 | server message, then `Error` message, then the form's fallback; success cleared; password fields kept |
| OwnerProfile.GoToTab | src/pages/owner/OwnerProfilePage.tsx:167-170 | switching tab closes the actions menu and keeps the messages and the password fields |
| Layouts.HeadsAreWordStarts | src/components/layout/OwnerLayout.tsx:19-22 | `split(" ").map(n => n[0]).join("")` is the sequence of characters that begin a space-separated word |
| Layouts.LayoutInitials | src/components/layout/OwnerLayout.tsx:18-24 | no name or no word gives the fallback; otherwise the first one or two word starts, upper-cased |
| Layouts.OwnerInitials | src/components/layout/OwnerLayout.tsx:18-24 | one or two characters with no lower-case letter; "BB" without a user |
| Layouts.ClientInitials | src/components/layout/ClientLayout.tsx:19-25 | one or two characters with no lower-case letter; "CL" without a user |
| Layouts.LayoutInitialsFirst | src/components/layout/ClientLayout.tsx:19-25 | a name not starting with a space gives initials starting with its first character, upper-cased |

## Left out

- The REST wrappers under `src/api/` are not modelled. Their results are the `Outcome` parameters of the operations.
- `src/api/client` is not part of this model.
- The owner home page is left out. It does wall-clock range arithmetic and floating-point revenue averages, and the rest is chart rendering.
- The reset-password pages are left out. They pass a form to the API, and their only logic is the message precedence modelled in `Failures`.
- Other pages and components are left out: the client profile page, the owner schedule page, the generic `Layout`, and the UI components (`Button`, `Input`, `Select`). They are presentation only, and the input ids come from `Math.random`.
- Locale output is left out: `toLocaleDateString`/`toLocaleTimeString`, the header date labels and `readableDate`. `ClientPages.SplitTime` takes the already formatted time text.
- Time zones and the clock are left out. The local calendar day of an instant and today's date are parameters. On the blocked-time page, `today` is the UTC date of `toISOString`, passed in as text.
- OwnerBlocks.IsBlockFullDay works on instants already converted to milliseconds. Parsing the `-05:00` date texts is left out, and a date that fails to parse is `None`.
- React Query caching and invalidation, the refetches, and the `setTimeout` delay before navigating are left out. Each operation is one atomic step.
- Overlapping requests and StrictMode double effects are left out.
- `confirm` and `alert` dialogs are left out. `OwnerBlocks.DeleteBlock` takes the confirmation as a boolean, and the "Reprogramar" button only raises an alert.
- Exceptions thrown by `localStorage` are left out.
- JSON is abstracted. A stored user is kept as a field list with escaping (`Codec`), not as JSON text. What matters is that decoding is total and undoes encoding. A parsable JSON value that is not a user is treated as not decoding.
- The user's avatar, language and attached business fields are left out, as is a service's price. No modelled logic reads them.
- AuthPages.SubmitLogin: the branch where the stored user fails to parse cannot be reached after a successful login. Its message is the engine's `SyntaxError` text, which is given only as a placeholder constant.
- Text.Upper, Text.Lower: case mapping covers the ASCII letters only. Non-ASCII letters are left unchanged, where JavaScript would map them.
- Text.LexLess orders by character code; UTF-16 surrogate pairs are not modelled.
- Layouts.LayoutInitials, OwnerProfile.Initials: a character here is a Unicode scalar value, while the source's `n[0]` and `parts[0]?.[0]` take one UTF-16 code unit. For a word starting with a character outside the Basic Multilingual Plane (an emoji, say) the source's initial is a lone surrogate, while the model's is the whole character; that case is not modelled, and the "first character" rows hold only for names whose word starts lie in the Basic Multilingual Plane.
- OwnerBookings.GroupByDate requires every booking's start time to be a valid date. A start time `new Date` cannot parse makes the source build the key `NaN-NaN-NaN` and compare with NaN, which leaves the sort order up to the engine; that case is not modelled.
- OwnerBookings.GroupByDate sorts groups by the calendar order of their days. That equals the source's `new Date(key)` order for the four-digit years assumed by `WellDated`; five-digit and negative years are left out.
- OwnerBookings.StatusBadge models the lookup for status texts. A raw status naming an inherited object property (such as `constructor`) is not modelled.
- OwnerBookings.CapitalizeWords proves length preservation and idempotence for the ASCII case mapping above; non-ASCII case changes that alter length are not modelled.
- Route matching covers the exact paths of the table. Trailing slashes and other normalisations done by the router are left out.
- Routes.Settles follows redirects in the route table only. The login page's own redirect effect is covered separately by `AuthPages.LoginRedirectSettles`.

=== FILE: auth_pages.dfy ===
/** The sign-in, registration and verification pages (src/pages/auth/):
    their form state, the requests they send and where they navigate. */
module AuthPages {
  import opened Types
  import opened Failures
  import opened Text
  import opened SessionStore
  import opened Routes
  import Codec

  // ---------------------------------------------------------------- LoginPage

  const LoginFallback := "Error al iniciar sesión"
  /** The message of the `SyntaxError` that `JSON.parse` throws; its exact
      text depends on the JavaScript engine. */
  const ParseErrorMessage := "Unexpected token in JSON"

  datatype LoginForm = LoginForm(credential: string, password: string, error: string, busy: bool)

  /** The page's effect: a visitor who is already signed in is sent on. */
  function LoginRedirect(v: AuthView): (target: Option<string>)
    ensures target.Some? <==> v.isAuthenticated && v.user.Some?
    ensures target.Some? ==> target.value == (if v.user.value.role == Owner then OwnerPath else AppPath)
  {
    if v.isAuthenticated && v.user.Some? then Some(Landing(v.user)) else None
  }

  /** The effect's target is a page the visitor may enter (after the `/app`
      index redirect), so the login page never bounces back and forth. */
  lemma LoginRedirectSettles(v: AuthView)
    requires !v.isLoading && LoginRedirect(v).Some?
    ensures Follow(LoginRedirect(v).value, v, 1).1 == Render
  {
    LandingConverges(v);
  }

  /** The submit button is disabled while a submission is in flight. */
  predicate CanSubmit(f: LoginForm) {
    !f.busy
  }

  /** The first part of `handleSubmit`: the error is cleared and the form is busy. */
  function BeginLogin(f: LoginForm): (r: LoginForm)
    ensures r.error == "" && !CanSubmit(r)
    ensures r.credential == f.credential && r.password == f.password
  {
    f.(error := "", busy := true)
  }

  datatype LoginResult = LoginResult(form: LoginForm, session: Session, navigate: Option<string>, call: SessionCall)

  /** `handleSubmit` from start to finish: log in, then go to the page for the
      role of the user now in storage, or show the failure. */
  function SubmitLogin(f: LoginForm, s: Session, reply: Outcome<Option<AuthReply>>): (r: LoginResult)
    ensures CanSubmit(r.form)
    ensures r.form.credential == f.credential && r.form.password == f.password
    ensures r.call == LoginCall(f.credential, f.password)
    ensures r.navigate.Some? <==> reply.Ok? && Complete(reply.value)
    ensures r.navigate.Some? ==>
              && r.navigate.value == Landing(reply.value.value.user)
              && r.form.error == ""
              && r.session == SetAuth(s, reply.value.value.user.value, reply.value.value.token.value)
    ensures reply.Fail? ==> r.session == s && r.form.error == ErrorMessage(reply.error, LoginFallback)
    ensures reply.Ok? && !Complete(reply.value) ==> r.session == s && r.form.error == InvalidLoginMessage
  {
    var started := BeginLogin(f);
    var call := LoginCall(f.credential, f.password);
    var st := Login(s, f.credential, f.password, reply);
    if st.thrown.Some? then
      LoginResult(started.(error := ErrorMessage(st.thrown.value, LoginFallback), busy := false), s, None, call)
    else
      var stored := Lookup(st.session.storage, UserKey);
      Codec.DecodeEncode(reply.value.value.user.value);
      if Truthy(stored) then
        match Codec.Decode(stored.value)
        case None => LoginResult(started.(error := ParseErrorMessage, busy := false), st.session, None, call)
        case Some(u) => LoginResult(started.(busy := false), st.session, Some(Landing(Some(u))), call)
      else LoginResult(started.(busy := false), st.session, Some(AppPath), call)
  }

  // ---------------------------------------------------------- VerifyEmailPage

  const EmailVerifiedMessage := "¡Email verificado correctamente!"
  const EmailVerifyFallback := "Error en la verificación"
  const ResentMessage := "Código reenviado correctamente."
  const ResendFallback := "Error al reenviar código"

  datatype VerifyEmailState = VerifyEmailState(
    code: string, error: string, success: string, busy: bool,
    requestingCode: bool, hasRequested: bool, fromRegister: bool)

  /** The page as mounted; `fromRegister` is the navigation state's `from == "register"`. */
  function EnterVerifyEmail(fromRegister: bool): (p: VerifyEmailState)
    ensures !p.hasRequested && !p.requestingCode && p.fromRegister == fromRegister
    ensures p.code == "" && p.error == "" && p.success == "" && !p.busy
  {
    VerifyEmailState("", "", "", false, false, false, fromRegister)
  }

  /** Whether the effect asks for a code for this user. */
  predicate WantsCode(user: Option<User>) {
    HasEmail(user) && !user.value.emailVerified
  }

  /** One run of the auto-request effect. Returns the new state and whether a
      code was requested; a failed request is swallowed. */
  function AutoRequest(p: VerifyEmailState, user: Option<User>): (r: (VerifyEmailState, bool))
    ensures r.1 <==> !p.fromRegister && !p.hasRequested && WantsCode(user)
    ensures r.0.hasRequested <==> p.hasRequested || r.1
    ensures !r.1 ==> r.0 == p
    ensures r.1 ==> !r.0.requestingCode && r.0.fromRegister == p.fromRegister && r.0.code == p.code
    ensures r.0.busy == p.busy
    ensures r.0.error == p.error && r.0.success == p.success
  {
    if p.fromRegister || p.hasRequested || !WantsCode(user) then (p, false)
    else (p.(hasRequested := true, requestingCode := false), true)
  }

  /** Requests sent by the effect over any number of re-runs, with whatever
      user the page sees each time. */
  function AutoRequests(p: VerifyEmailState, users: seq<Option<User>>): nat
    decreases |users|
  {
    if |users| == 0 then 0
    else
      var r := AutoRequest(p, users[0]);
      (if r.1 then 1 else 0) + AutoRequests(r.0, users[1..])
  }

  /** At most one code is requested per mount. */
  lemma {:induction false} AtMostOneAutoRequest(p: VerifyEmailState, users: seq<Option<User>>)
    ensures AutoRequests(p, users) <= 1
    ensures p.hasRequested ==> AutoRequests(p, users) == 0
    decreases |users|
  {
    if |users| > 0 {
      AtMostOneAutoRequest(AutoRequest(p, users[0]).0, users[1..]);
    }
  }

  /** Arriving from registration, no code is requested at all. */
  lemma {:induction false} NoAutoRequestAfterRegister(p: VerifyEmailState, users: seq<Option<User>>)
    requires p.fromRegister
    ensures AutoRequests(p, users) == 0
    decreases |users|
  {
    if |users| > 0 {
      NoAutoRequestAfterRegister(AutoRequest(p, users[0]).0, users[1..]);
    }
  }

  datatype VerifyEmailResult = VerifyEmailResult(page: VerifyEmailState, session: Session, navigate: Option<string>)

  /** `handleSubmit`: verify the code; on success show the message and go to
      the landing page of the user the page had; otherwise show the error. */
  function SubmitVerifyEmail(p: VerifyEmailState, s: Session, reply: Outcome<EmailReply>): (r: VerifyEmailResult)
    ensures !r.page.busy
    ensures r.page.code == p.code && r.page.requestingCode == p.requestingCode
    ensures r.page.hasRequested == p.hasRequested && r.page.fromRegister == p.fromRegister
    ensures r.navigate.Some? <==> HasEmail(s.user) && reply.Ok?
    ensures r.navigate.Some? ==>
              && r.navigate.value == Landing(s.user)
              && r.session.user == reply.value.user
              && r.page.success == EmailVerifiedMessage && r.page.error == ""
    ensures r.navigate.None? ==> r.session == s && r.page.success == ""
    ensures !HasEmail(s.user) ==> r.page.error == NoEmailMessage
    ensures HasEmail(s.user) && reply.Fail? ==> r.page.error == ErrorMessage(reply.error, EmailVerifyFallback)
  {
    var started := p.(error := "", success := "", busy := true);
    var st := VerifyEmail(s, p.code, reply);
    match st.thrown
    case Some(e) => VerifyEmailResult(started.(error := ErrorMessage(e, EmailVerifyFallback), busy := false), s, None)
    case None => VerifyEmailResult(started.(success := EmailVerifiedMessage, busy := false), st.session, Some(Landing(s.user)))
  }

  /** `handleResendCode`. */
  function ResendEmailCode(p: VerifyEmailState, reply: Outcome<string>): (r: VerifyEmailState)
    ensures !r.requestingCode
    ensures r.code == p.code && r.busy == p.busy
    ensures r.hasRequested == p.hasRequested && r.fromRegister == p.fromRegister
    ensures reply.Ok? ==> r.success == ResentMessage && r.error == ""
    ensures reply.Fail? ==> r.error == ErrorMessage(reply.error, ResendFallback) && r.success == ""
  {
    var started := p.(error := "", success := "", requestingCode := true);
    match reply
    case Ok(_) => started.(success := ResentMessage, requestingCode := false)
    case Fail(e) => started.(error := ErrorMessage(e, ResendFallback), requestingCode := false)
  }

  /** The auto-request effect looks only at the two flags and the user, so
      states that agree on the flags request equally often. */
  lemma {:induction false} AutoRequestsByFlags(p: VerifyEmailState, q: VerifyEmailState, users: seq<Option<User>>)
    requires p.hasRequested == q.hasRequested && p.fromRegister == q.fromRegister
    ensures AutoRequests(p, users) == AutoRequests(q, users)
    decreases |users|
  {
    if |users| > 0 {
      AutoRequestsByFlags(AutoRequest(p, users[0]).0, AutoRequest(q, users[0]).0, users[1..]);
    }
  }

  /** A resend never re-arms the auto-request: whatever follows it asks for
      codes exactly as often as it would have without the resend. */
  lemma ResendKeepsAutoRequests(p: VerifyEmailState, reply: Outcome<string>, users: seq<Option<User>>)
    ensures AutoRequests(ResendEmailCode(p, reply), users) == AutoRequests(p, users)
  {
    AutoRequestsByFlags(ResendEmailCode(p, reply), p, users);
  }

  // ---------------------------------------------------------- VerifyPhonePage

  const NoPhoneOnPage := "No se encontró un número de teléfono asociado a tu cuenta."
  const CodeSentDefault := "Código enviado a tu teléfono."
  const RequestCodeFallback := "Error al solicitar código"
  const PhoneVerifiedMessage := "Teléfono verificado exitosamente."
  const InvalidCodeFallback := "Código inválido"

  datatype VerifyPhoneState = VerifyPhoneState(code: string, error: string, success: string)

  /** `handleRequestCode` and its mutation callbacks. Returns the new state and
      the phone number the request was sent with, if one was sent. */
  function RequestPhoneCode(p: VerifyPhoneState, user: Option<User>, reply: Outcome<Option<string>>)
    : (r: (VerifyPhoneState, Option<string>))
    ensures !HasPhone(user) ==> r.1.None? && r.0 == p.(error := NoPhoneOnPage)
    ensures HasPhone(user) ==> r.1 == user.value.phone
    ensures r.0.code == p.code
    ensures HasPhone(user) && reply.Ok? ==>
              r.0.error == "" && r.0.success == (if Truthy(reply.value) then reply.value.value else CodeSentDefault)
    ensures HasPhone(user) && reply.Fail? ==>
              r.0.success == "" && r.0.error == DisplayMessage(reply.error, RequestCodeFallback)
  {
    if !HasPhone(user) then (p.(error := NoPhoneOnPage), None)
    else
      match reply
      case Ok(m) => (p.(success := if Truthy(m) then m.value else CodeSentDefault, error := ""), user.value.phone)
      case Fail(e) => (p.(error := DisplayMessage(e, RequestCodeFallback), success := ""), user.value.phone)
  }

  /** The "skip for now" button. */
  function SkipPhone(user: Option<User>): (target: string)
    ensures target == OwnerPath <==> user.Some? && user.value.role == Owner
    ensures target != OwnerPath ==> target == AppPath
  {
    Landing(user)
  }

  datatype VerifyPhoneResult = VerifyPhoneResult(page: VerifyPhoneState, session: Session, navigate: Option<string>)

  /** `handleConfirm` and the confirm mutation's callbacks. */
  function ConfirmPhone(p: VerifyPhoneState, s: Session, reply: Outcome<string>): (r: VerifyPhoneResult)
    ensures r.navigate.Some? <==> HasPhone(s.user) && reply.Ok?
    ensures r.page.code == p.code
    ensures r.navigate.Some? ==>
              && r.navigate == Some(SkipPhone(s.user))
              && r.session.user == Some(s.user.value.(phoneVerified := true))
              && r.page.success == PhoneVerifiedMessage && r.page.error == ""
    ensures r.navigate.None? ==> r.session == s && r.page.success == p.success
    ensures !HasPhone(s.user) ==> r.page.error == NoPhoneMessage
    ensures HasPhone(s.user) && reply.Fail? ==> r.page.error == DisplayMessage(reply.error, InvalidCodeFallback)
  {
    var started := p.(error := "");
    var st := VerifyPhone(s, p.code, reply);
    match st.thrown
    case Some(e) => VerifyPhoneResult(started.(error := DisplayMessage(e, InvalidCodeFallback)), s, None)
    case None => VerifyPhoneResult(started.(success := PhoneVerifiedMessage), st.session, Some(Landing(s.user)))
  }

  // ------------------------------------------------------------- RegisterPage

  const InvalidEmailMessage := "Por favor ingresa un correo electrónico válido"
  const RegisteredMessage := "¡Registro exitoso! Ahora verifica tu correo electrónico."
  const RegisterFallback := "Error al registrar"
  const VerifyEmailPath := "/verify-email"

  datatype RegisterForm = RegisterForm(fullName: string, username: string, email: string, phone: string, password: string)

  datatype RegisterField = FullNameField | UsernameField | EmailField | PhoneField | PasswordField

  function FieldValue(f: RegisterForm, field: RegisterField): string {
    match field
    case FullNameField => f.fullName
    case UsernameField => f.username
    case EmailField => f.email
    case PhoneField => f.phone
    case PasswordField => f.password
  }

  /** `handleChange`: the named field takes the value, the others keep theirs. */
  function ChangeField(f: RegisterForm, field: RegisterField, value: string): (r: RegisterForm)
    ensures FieldValue(r, field) == value
    ensures forall g :: g != field ==> FieldValue(r, g) == FieldValue(f, g)
  {
    match field
    case FullNameField => f.(fullName := value)
    case UsernameField => f.(username := value)
    case EmailField => f.(email := value)
    case PhoneField => f.(phone := value)
    case PasswordField => f.(password := value)
  }

  /** Neither whitespace nor `@`: the class `[^\s@]`. */
  predicate Plain(t: string) {
    forall k :: 0 <= k < |t| ==> !IsSpace(t[k]) && t[k] != '@'
  }

  /** `/^[^\s@]+@[^\s@]+\.[^\s@]+$/`: text, `@`, text, `.`, text, each text
      non-empty and plain. */
  ghost predicate MatchesEmailPattern(s: string) {
    exists i, j :: EmailParts(s, i, j)
  }

  /** `s` is text, `@` at `i`, text, `.` at `j`, text. */
  predicate EmailParts(s: string, i: int, j: int) {
    0 < i && i + 1 < j && j + 1 < |s| && s[i] == '@' && s[j] == '.'
      && Plain(s[..i]) && Plain(s[i + 1..j]) && Plain(s[j + 1..])
  }

  /** The check as computed: split at the first `@`, then look for a dot that
      is neither the first nor the last character of the domain. */
  function EmailValid(s: string): (ok: bool)
    ensures ok <==> MatchesEmailPattern(s)
  {
    var at := IndexOf(s, '@');
    if at <= 0 then
      NoAtNoMatch(s, at);
      false
    else
      var domain := s[at + 1..];
      var ok := Plain(s[..at]) && Plain(domain) && |domain| >= 3 && IndexOf(domain[1..|domain| - 1], '.') != -1;
      EmailValidSound(s, at, ok);
      ok
  }

  lemma NoAtNoMatch(s: string, at: int)
    requires at == IndexOf(s, '@') && at <= 0
    ensures !MatchesEmailPattern(s)
  {
    PartsFirstAt(s);
  }

  /** In a well-formed address the `@` is the first one. */
  lemma PartsFirstAt(s: string)
    ensures forall i, j :: EmailParts(s, i, j) ==> IndexOf(s, '@') == i
  {
    forall i, j | EmailParts(s, i, j)
      ensures IndexOf(s, '@') == i
    {
      FirstAt(s, i);
    }
  }

  lemma EmailValidSound(s: string, at: int, ok: bool)
    requires at == IndexOf(s, '@') && at > 0
    requires var domain := s[at + 1..];
             ok == (Plain(s[..at]) && Plain(domain) && |domain| >= 3 && IndexOf(domain[1..|domain| - 1], '.') != -1)
    ensures ok <==> MatchesEmailPattern(s)
  {
    if ok {
      EmailValidWitness(s, at);
    }
    if MatchesEmailPattern(s) {
      var i, j :| EmailParts(s, i, j);
      EmailPatternComputed(s, at, i, j);
    }
  }

  lemma EmailValidWitness(s: string, at: int)
    requires at == IndexOf(s, '@') && at > 0
    requires var domain := s[at + 1..];
             Plain(s[..at]) && Plain(domain) && |domain| >= 3 && IndexOf(domain[1..|domain| - 1], '.') != -1
    ensures MatchesEmailPattern(s)
  {
    var domain := s[at + 1..];
    var k := IndexOf(domain[1..|domain| - 1], '.');
    DomainSplit(domain, k);
    EmailPartsOf(s, at, k);
  }

  /** A dot found strictly inside a plain domain splits it into two plain parts. */
  lemma DomainSplit(domain: string, k: int)
    requires Plain(domain) && |domain| >= 3
    requires 0 <= k < |domain| - 2 && domain[1..|domain| - 1][k] == '.'
    ensures domain[k + 1] == '.' && Plain(domain[..k + 1]) && Plain(domain[k + 2..])
  {
    PlainSlice(domain, 0, k + 1);
    PlainSlice(domain, k + 2, |domain|);
    assert domain[k + 2..] == domain[k + 2..|domain|];
  }

  /** The parts of the domain are the parts of the address after the `@`. */
  lemma EmailPartsOf(s: string, at: int, k: int)
    requires 0 < at < |s| && s[at] == '@' && Plain(s[..at])
    requires var domain := s[at + 1..];
      0 <= k < |domain| - 2 && domain[k + 1] == '.' && Plain(domain[..k + 1]) && Plain(domain[k + 2..])
    ensures EmailParts(s, at, at + 2 + k)
  {
    var domain := s[at + 1..];
    assert s[at + 1..at + 2 + k] == domain[..k + 1];
    assert s[at + 3 + k..] == domain[k + 2..];
  }

  lemma PlainSlice(t: string, a: int, b: int)
    requires Plain(t) && 0 <= a <= b <= |t|
    ensures Plain(t[a..b])
  {
  }

  lemma EmailPatternComputed(s: string, at: int, i: int, j: int)
    requires at == IndexOf(s, '@') && at > 0
    requires EmailParts(s, i, j)
    ensures var domain := s[at + 1..];
            Plain(s[..at]) && Plain(domain) && |domain| >= 3 && IndexOf(domain[1..|domain| - 1], '.') != -1
  {
    FirstAt(s, i);
    var domain := s[i + 1..];
    assert domain == s[i + 1..j] + ['.'] + s[j + 1..];
    PlainJoin(s[i + 1..j], '.', s[j + 1..]);
    var inner := domain[1..|domain| - 1];
    assert inner[j - i - 2] == '.';
  }

  /** An `@` after a plain prefix is the first one. */
  lemma FirstAt(s: string, i: int)
    requires 0 < i < |s| && s[i] == '@' && Plain(s[..i])
    ensures IndexOf(s, '@') == i
  {
    forall k | 0 <= k < i
      ensures s[k] != '@'
    {
      assert s[..i][k] == s[k];
    }
    IndexOfFirst(s, '@', i);
  }

  lemma PlainJoin(a: string, c: char, b: string)
    requires Plain(a) && Plain(b) && !IsSpace(c) && c != '@'
    ensures Plain(a + [c] + b)
  {
  }

  /** The registration request; `phone` is left out when absent. */
  datatype RegisterRequest = RegisterRequest(fullName: string, username: string, email: string, password: string, phone: Option<string>)

  /** `handleSubmit`: refuse a malformed e-mail; otherwise build the request,
      adding the phone (as typed) only when it is not blank. Returns the
      error text and the request sent, if any. */
  function SubmitRegister(f: RegisterForm): (r: (string, Option<RegisterRequest>))
    ensures r.1.Some? <==> MatchesEmailPattern(f.email)
    ensures r.1.None? ==> r.0 == InvalidEmailMessage
    ensures r.1.Some? ==>
              && r.0 == ""
              && r.1.value.fullName == f.fullName && r.1.value.username == f.username
              && r.1.value.email == f.email && r.1.value.password == f.password
              && (r.1.value.phone.Some? <==> !IsBlank(f.phone))
              && (r.1.value.phone.Some? ==> r.1.value.phone.value == f.phone)
  {
    if !EmailValid(f.email) then (InvalidEmailMessage, None)
    else
      var phone := if Trim(f.phone) != "" then Some(f.phone) else None;
      ("", Some(RegisterRequest(f.fullName, f.username, f.email, f.password, phone)))
  }

  datatype RegisterReply = RegisterReply(user: Option<User>, token: Option<string>, message: string)

  /** The navigation after registering: to the e-mail check, replacing the
      entry, marked as coming from registration. */
  datatype RegisterNavigation = RegisterNavigation(to: string, message: string, fromRegister: bool, replace: bool)

  /** `onSuccess`: keep the session only when the reply has both a token and
      a user, and go to the e-mail check in every case. */
  function RegisterSucceeded(s: Session, reply: RegisterReply): (r: (Session, RegisterNavigation))
    ensures Truthy(reply.token) && reply.user.Some? ==> r.0 == SetAuth(s, reply.user.value, reply.token.value)
    ensures !(Truthy(reply.token) && reply.user.Some?) ==> r.0 == s
    ensures r.1 == RegisterNavigation(VerifyEmailPath, RegisteredMessage, true, true)
  {
    var s' := if Truthy(reply.token) && reply.user.Some? then SetAuth(s, reply.user.value, reply.token.value) else s;
    (s', RegisterNavigation(VerifyEmailPath, RegisteredMessage, true, true))
  }

  /** `onError`: the server's message, then the `Error` message, then the fallback. */
  function RegisterFailed(e: Thrown): (error: string)
    ensures ServerMessage(e).Some? ==> error == ServerMessage(e).value
    ensures ServerMessage(e).None? ==> error == ErrorMessage(e, RegisterFallback)
  {
    DisplayMessage(e, RegisterFallback)
  }

  /** After registering, the e-mail page requests no further code, whatever
      user it sees. */
  lemma RegisterThenNoAutoRequest(s: Session, reply: RegisterReply, users: seq<Option<User>>)
    ensures AutoRequests(EnterVerifyEmail(RegisterSucceeded(s, reply).1.fromRegister), users) == 0
  {
    NoAutoRequestAfterRegister(EnterVerifyEmail(true), users);
  }
}

=== FILE: client_pages.dfy ===
/** The client's pages (src/pages/client/): booking a slot and the list of
    the client's own bookings. */
module ClientPages {
  import opened Types
  import opened Failures
  import opened Text
  import opened Dates

  // ----------------------------------------------------------- NewBookingPage

  const BookingCreatedMessage := "¡Reserva creada exitosamente!"
  const CreateBookingFallback := "Error al crear reserva"
  /** Both the error code the server sends and the page's marker for it. */
  const EmailNotVerified := "EMAIL_NOT_VERIFIED"

  datatype BookingForm = BookingForm(
    selectedDate: string, serviceId: string, slot: Option<string>,
    notes: string, success: string, error: string)

  /** The page as mounted on the given local calendar day. */
  function OpenBookingForm(today: LocalDate): (f: BookingForm)
    requires ValidDate(today)
    ensures FourDigitYear(today) ==>
              |f.selectedDate| == 10 && ParseKey(f.selectedDate) == Some((today.year, today.month0 + 1, today.day))
    ensures f.serviceId == "" && f.slot.None? && f.notes == "" && f.success == "" && f.error == ""
  {
    KeyRoundTripIfFourDigits(today);
    BookingForm(DateKey(today), "", None, "", "", "")
  }

  lemma KeyRoundTripIfFourDigits(d: LocalDate)
    requires ValidDate(d)
    ensures FourDigitYear(d) ==> |DateKey(d)| == 10 && ParseKey(DateKey(d)) == Some((d.year, d.month0 + 1, d.day))
  {
    if FourDigitYear(d) {
      KeyRoundTrip(d);
    }
  }

  /** `user?.emailVerified || false`. */
  predicate EmailVerified(user: Option<User>) {
    user.Some? && user.value.emailVerified
  }

  /** The booking request; `notes` is left out when empty. */
  datatype BookingRequest = BookingRequest(serviceId: string, startTime: string, notes: Option<string>)

  /** `handleSubmit`: a request is sent only with a slot, a service and a
      verified e-mail. */
  function SubmitBooking(f: BookingForm, user: Option<User>): (r: Option<BookingRequest>)
    ensures r.Some? <==> Truthy(f.slot) && f.serviceId != "" && EmailVerified(user)
    ensures r.Some? ==> r.value.serviceId == f.serviceId && r.value.startTime == f.slot.value
    ensures r.Some? ==> (r.value.notes.None? <==> f.notes == "") && (r.value.notes.Some? ==> r.value.notes.value == f.notes)
  {
    if !Truthy(f.slot) || f.serviceId == "" || !EmailVerified(user) then None
    else Some(BookingRequest(f.serviceId, f.slot.value, if f.notes == "" then None else Some(f.notes)))
  }

  /** The create mutation's `onSuccess`. */
  function BookingCreated(f: BookingForm): (r: BookingForm)
    ensures r.success == BookingCreatedMessage && r.error == ""
    ensures r.slot.None? && r.notes == ""
    ensures r.selectedDate == f.selectedDate && r.serviceId == f.serviceId
  {
    f.(success := BookingCreatedMessage, slot := None, notes := "", error := "")
  }

  /** The error code the server attached, if the failure carries a response. */
  function ErrorCode(e: Thrown): Option<string> {
    if e.response.Some? then e.response.value.code else None
  }

  /** The create mutation's `onError`: the marker for an unverified e-mail,
      otherwise the server's message, the `Error` message or the fallback. */
  function BookingFailed(f: BookingForm, e: Thrown): (r: BookingForm)
    ensures r.success == ""
    ensures ErrorCode(e) == Some(EmailNotVerified) ==> r.error == EmailNotVerified
    ensures ErrorCode(e) != Some(EmailNotVerified) ==> r.error == DisplayMessage(e, CreateBookingFallback)
    ensures r.slot == f.slot && r.notes == f.notes && r.selectedDate == f.selectedDate && r.serviceId == f.serviceId
  {
    var message := DisplayMessage(e, CreateBookingFallback);
    f.(success := "", error := if ErrorCode(e) == Some(EmailNotVerified) then EmailNotVerified else message)
  }

  /** `handleDateChange`. */
  function ChangeDate(f: BookingForm, date: string): (r: BookingForm)
    ensures r.selectedDate == date && r.slot.None? && r.success == "" && r.error == ""
    ensures r.serviceId == f.serviceId && r.notes == f.notes
  {
    f.(selectedDate := date, slot := None, success := "", error := "")
  }

  /** `handleSlotClick`. */
  function ClickSlot(f: BookingForm, startTime: string): (r: BookingForm)
    ensures r.slot == Some(startTime) && r.success == "" && r.error == ""
    ensures r.selectedDate == f.selectedDate && r.serviceId == f.serviceId && r.notes == f.notes
  {
    f.(slot := Some(startTime), success := "", error := "")
  }

  /** The effect that picks the first service when none is selected yet. */
  function AutoSelectService(f: BookingForm, services: seq<Service>): (r: BookingForm)
    ensures |services| > 0 && f.serviceId == "" ==> r == f.(serviceId := services[0].id)
    ensures !(|services| > 0 && f.serviceId == "") ==> r == f
  {
    if |services| > 0 && f.serviceId == "" then f.(serviceId := services[0].id) else f
  }

  /** Re-running the effect changes nothing more. */
  lemma AutoSelectSettles(f: BookingForm, services: seq<Service>)
    ensures AutoSelectService(AutoSelectService(f, services), services) == AutoSelectService(f, services)
  {
  }

  /** After a booking is made nothing more is sent until a new slot is
      picked; picking one with a service chosen and a verified e-mail sends
      exactly that slot. */
  lemma OneBookingPerSlotPick(f: BookingForm, user: Option<User>, date: string, startTime: string)
    ensures SubmitBooking(BookingCreated(f), user).None?
    ensures SubmitBooking(ChangeDate(f, date), user).None?
    ensures f.serviceId != "" && EmailVerified(user) && startTime != "" ==>
              SubmitBooking(ClickSlot(BookingCreated(f), startTime), user)
                == Some(BookingRequest(f.serviceId, startTime, None))
  {
  }

  /** What the messages area shows for the current error. */
  datatype Notice = NoNotice | ErrorNotice(text: string) | VerifyNotice

  function NoticeOf(error: string): (n: Notice)
    ensures n == NoNotice <==> error == ""
    ensures n == VerifyNotice <==> error == EmailNotVerified
    ensures n.ErrorNotice? ==> n.text == error
  {
    if error == "" then NoNotice
    else if error == EmailNotVerified then VerifyNotice
    else ErrorNotice(error)
  }

  /** A rejection for an unverified e-mail shows the verification notice,
      not a plain error. */
  lemma UnverifiedRejectionNotice(f: BookingForm, e: Thrown)
    requires ErrorCode(e) == Some(EmailNotVerified)
    ensures NoticeOf(BookingFailed(f, e).error) == VerifyNotice
  {
  }

  // ----------------------------------------------------------- MyBookingsPage

  /** `splitTime` on the formatted time: the part before the first space,
      and the rest trimmed and upper-cased. */
  function SplitTime(full: string): (r: (string, string))
    ensures ' ' !in r.0 && r.0 <= full
    ensures ' ' in full ==> full[|r.0|] == ' '
    ensures ' ' !in full <==> r == (full, "")
    ensures NoLower(r.1) && Trimmed(r.1)
  {
    var idx := IndexOf(full, ' ');
    if idx == -1 then (full, "")
    else
      var suffix := Trim(full[idx + 1..]);
      UpperTrimmed(suffix);
      (full[..idx], Upper(suffix))
  }

  /** The suffix is whatever follows the first space, trimmed and
      upper-cased. */
  lemma SplitTimeSuffix(full: string)
    requires ' ' in full
    ensures var r := SplitTime(full); r.1 == Upper(Trim(full[|r.0| + 1..]))
  {
    var idx := IndexOf(full, ' ');
    assert |SplitTime(full).0| == idx;
  }

  /** A time and an already-normalised suffix come back unchanged. */
  lemma SplitTimeJoin(time: string, suffix: string)
    requires ' ' !in time
    requires NoLower(suffix) && Trimmed(suffix)
    ensures SplitTime(time + " " + suffix) == (time, suffix)
  {
    var full := time + " " + suffix;
    assert full[|time|] == ' ';
    assert full[..|time|] == time;
    assert IndexOf(full, ' ') == |time|;
    assert full[|time| + 1..] == suffix;
    TrimTrimmed(suffix);
    UpperNoLower(suffix);
  }

  /** `statusLabels`. */
  function StatusLabel(s: BookingStatus): (text: string)
    ensures text != ""
  {
    match s
    case Pending => "Pendiente"
    case Confirmed => "Confirmada"
    case Cancelled => "Cancelada"
    case Completed => "Completada"
  }

  /** The status in lower case, as class names spell it. */
  function StatusModifier(s: BookingStatus): (m: string)
    ensures m == Lower(StatusText(s))
  {
    match s
    case Pending => LowerPending(); "pending"
    case Confirmed => LowerConfirmed(); "confirmed"
    case Cancelled => LowerCancelled(); "cancelled"
    case Completed => LowerCompleted(); "completed"
  }

  lemma LowerPending() ensures Lower("PENDING") == "pending" { }
  lemma LowerConfirmed() ensures Lower("CONFIRMED") == "confirmed" { }
  lemma LowerCancelled() ensures Lower("CANCELLED") == "cancelled" { }
  lemma LowerCompleted() ensures Lower("COMPLETED") == "completed" { }

  /** `statusBadgeClass`: the badge modifier is the status in lower case,
      the same modifier the booking card uses. */
  function StatusBadgeClass(s: BookingStatus): (cls: string)
    ensures cls == "status-badge status-badge--" + Lower(StatusText(s))
  {
    "status-badge status-badge--" + StatusModifier(s)
  }

  /** Different statuses never share a label or a badge. */
  lemma StatusTablesInjective(a: BookingStatus, b: BookingStatus)
    requires a != b
    ensures StatusLabel(a) != StatusLabel(b)
    ensures StatusBadgeClass(a) != StatusBadgeClass(b)
  {
    var pa := "status-badge status-badge--";
    assert StatusBadgeClass(a)[|pa|..] == StatusModifier(a);
    assert StatusBadgeClass(b)[|pa|..] == StatusModifier(b);
  }

  /** The parts of the page that can be shown. */
  datatype Section = LoadingSpinner | LoadError | EmptyList | BookingList

  /** The sections on screen for the query's state. */
  function Sections(isLoading: bool, failed: bool, count: nat): (r: set<Section>)
    ensures |r| == 1
    ensures LoadingSpinner in r <==> isLoading
    ensures LoadError in r <==> !isLoading && failed
    ensures EmptyList in r <==> !isLoading && !failed && count == 0
    ensures BookingList in r <==> !isLoading && !failed && count > 0
  {
    (if isLoading then {LoadingSpinner} else {})
    + (if !isLoading && failed then {LoadError} else {})
    + (if !isLoading && !failed then (if count == 0 then {EmptyList} else {BookingList}) else {})
  }
}

=== FILE: codec.dfy ===
/** The text form of a `User` kept in durable storage. The source writes it
    with `JSON.stringify` and reads it with `JSON.parse`; here the text form is
    a sequence of fields, each terminated by `;`, with `;` and `\` escaped by
    a preceding `\`. What matters to the session store is that decoding is
    total (a malformed text yields `None`) and undoes encoding. */
module Codec {
  import opened Types

  const Sep: char := ';'
  const Esc: char := '\\'

  function Escape(f: string): string
    decreases |f|
  {
    if |f| == 0 then ""
    else (if f[0] == Sep || f[0] == Esc then [Esc, f[0]] else [f[0]]) + Escape(f[1..])
  }

  function Serialize(fs: seq<string>): string
    decreases |fs|
  {
    if |fs| == 0 then "" else Escape(fs[0]) + [Sep] + Serialize(fs[1..])
  }

  /** Reads one field up to its terminator; returns the field and what follows. */
  function ReadField(s: string): (r: Option<(string, string)>)
    ensures r.Some? ==> |r.value.1| < |s|
    decreases |s|
  {
    if |s| == 0 then None
    else if s[0] == Sep then Some(("", s[1..]))
    else if s[0] == Esc then
      if |s| < 2 then None
      else match ReadField(s[2..])
        case None => None
        case Some(p) => Some(([s[1]] + p.0, p.1))
    else match ReadField(s[1..])
      case None => None
      case Some(p) => Some(([s[0]] + p.0, p.1))
  }

  function ParseFields(s: string): Option<seq<string>>
    decreases |s|
  {
    if |s| == 0 then Some([])
    else match ReadField(s)
      case None => None
      case Some(p) =>
        match ParseFields(p.1)
        case None => None
        case Some(rest) => Some([p.0] + rest)
  }

  /** An escaped field followed by its terminator reads back as the field. */
  lemma {:induction false} ReadEscaped(f: string, rest: string)
    ensures ReadField(Escape(f) + [Sep] + rest) == Some((f, rest))
    decreases |f|
  {
    var s := Escape(f) + [Sep] + rest;
    if |f| == 0 {
      assert s == [Sep] + rest;
    } else {
      var tail := Escape(f[1..]) + [Sep] + rest;
      ReadEscaped(f[1..], rest);
      assert [f[0]] + f[1..] == f;
      if f[0] == Sep || f[0] == Esc {
        assert s == [Esc, f[0]] + tail;
        assert s[2..] == tail;
      } else {
        assert s == [f[0]] + tail;
        assert s[1..] == tail;
      }
    }
  }

  /** Parsing undoes serialisation. */
  lemma {:induction false} ParseSerialize(fs: seq<string>)
    ensures ParseFields(Serialize(fs)) == Some(fs)
    decreases |fs|
  {
    if |fs| > 0 {
      var s := Serialize(fs);
      ReadEscaped(fs[0], Serialize(fs[1..]));
      assert |s| > 0;
      ParseSerialize(fs[1..]);
      assert [fs[0]] + fs[1..] == fs;
    }
  }

  /** A text with no field terminator holds no complete field. */
  lemma {:induction false} UnterminatedField(s: string)
    requires Sep !in s
    ensures ReadField(s) == None
    decreases |s|
  {
    if |s| >= 2 && s[0] == Esc {
      UnterminatedField(s[2..]);
    } else if |s| >= 1 && s[0] != Esc && s[0] != Sep {
      UnterminatedField(s[1..]);
    }
  }

  function BoolText(b: bool): string {
    if b then "true" else "false"
  }

  function ParseBool(t: string): Option<bool> {
    if t == "true" then Some(true) else if t == "false" then Some(false) else None
  }

  function RoleText(r: Role): string {
    match r
    case Client => "CLIENT"
    case Owner => "OWNER"
  }

  function ParseRole(t: string): Option<Role> {
    if t == "CLIENT" then Some(Client) else if t == "OWNER" then Some(Owner) else None
  }

  function OptText(o: Option<string>): string {
    match o
    case None => "null"
    case Some(v) => "=" + v
  }

  function ParseOpt(t: string): Option<Option<string>> {
    if t == "null" then Some(None)
    else if |t| > 0 && t[0] == '=' then Some(Some(t[1..]))
    else None
  }

  function GenderText(g: Option<Gender>): string {
    match g
    case None => "null"
    case Some(Male) => "MALE"
    case Some(Female) => "FEMALE"
    case Some(OtherGender) => "OTHER"
    case Some(PreferNotToSay) => "PREFER_NOT_TO_SAY"
  }

  function ParseGender(t: string): Option<Option<Gender>> {
    if t == "null" then Some(None)
    else if t == "MALE" then Some(Some(Male))
    else if t == "FEMALE" then Some(Some(Female))
    else if t == "OTHER" then Some(Some(OtherGender))
    else if t == "PREFER_NOT_TO_SAY" then Some(Some(PreferNotToSay))
    else None
  }

  function ChannelText(c: Option<NotificationChannel>): string {
    match c
    case None => "null"
    case Some(WhatsApp) => "WHATSAPP"
    case Some(Sms) => "SMS"
    case Some(EmailChannel) => "EMAIL"
  }

  function ParseChannel(t: string): Option<Option<NotificationChannel>> {
    if t == "null" then Some(None)
    else if t == "WHATSAPP" then Some(Some(WhatsApp))
    else if t == "SMS" then Some(Some(Sms))
    else if t == "EMAIL" then Some(Some(EmailChannel))
    else None
  }

  function OptBoolText(b: Option<bool>): string {
    match b
    case None => "null"
    case Some(v) => BoolText(v)
  }

  function ParseOptBool(t: string): Option<Option<bool>> {
    if t == "null" then Some(None)
    else match ParseBool(t)
      case None => None
      case Some(v) => Some(Some(v))
  }

  const FieldCount := 14

  function UserFields(u: User): (fs: seq<string>)
    ensures |fs| == FieldCount
  {
    [u.id, u.fullName, u.username, u.email, OptText(u.phone), RoleText(u.role),
     BoolText(u.emailVerified), BoolText(u.phoneVerified), GenderText(u.gender),
     OptText(u.birthDate), ChannelText(u.notificationChannel), OptBoolText(u.marketingOptIn),
     u.createdAt, u.updatedAt]
  }

  function UserOf(fs: seq<string>): Option<User> {
    if |fs| != FieldCount then None
    else
      var phone :- ParseOpt(fs[4]);
      var role :- ParseRole(fs[5]);
      var emailVerified :- ParseBool(fs[6]);
      var phoneVerified :- ParseBool(fs[7]);
      var gender :- ParseGender(fs[8]);
      var birthDate :- ParseOpt(fs[9]);
      var channel :- ParseChannel(fs[10]);
      var optIn :- ParseOptBool(fs[11]);
      Some(User(fs[0], fs[1], fs[2], fs[3], phone, role, emailVerified, phoneVerified,
                gender, birthDate, channel, optIn, fs[12], fs[13]))
  }

  /** `JSON.stringify` of a user. */
  function Encode(u: User): (r: string)
    ensures |r| >= FieldCount
  {
    EncodeLength(UserFields(u));
    Serialize(UserFields(u))
  }

  lemma {:induction false} EncodeLength(fs: seq<string>)
    ensures |Serialize(fs)| >= |fs|
    decreases |fs|
  {
    if |fs| > 0 {
      EncodeLength(fs[1..]);
    }
  }

  /** `JSON.parse` of a stored text, `None` where the text is not a user. */
  function Decode(s: string): Option<User> {
    var fs :- ParseFields(s);
    UserOf(fs)
  }

  lemma OptRoundTrip(o: Option<string>)
    ensures ParseOpt(OptText(o)) == Some(o)
  {
    if o.Some? {
      assert OptText(o)[1..] == o.value;
    }
  }

  lemma FieldRoundTrips(u: User)
    ensures ParseRole(RoleText(u.role)) == Some(u.role)
    ensures ParseBool(BoolText(u.emailVerified)) == Some(u.emailVerified)
    ensures ParseBool(BoolText(u.phoneVerified)) == Some(u.phoneVerified)
    ensures ParseGender(GenderText(u.gender)) == Some(u.gender)
    ensures ParseChannel(ChannelText(u.notificationChannel)) == Some(u.notificationChannel)
    ensures ParseOptBool(OptBoolText(u.marketingOptIn)) == Some(u.marketingOptIn)
  {
  }

  /** The fields of a user read back as that user. */
  lemma UserOfFields(u: User)
    ensures UserOf(UserFields(u)) == Some(u)
  {
    OptRoundTrip(u.phone);
    OptRoundTrip(u.birthDate);
    FieldRoundTrips(u);
  }

  /** A stored user reads back as the same user. */
  lemma DecodeEncode(u: User)
    ensures Decode(Encode(u)) == Some(u)
  {
    ParseSerialize(UserFields(u));
    UserOfFields(u);
  }

  /** A non-empty text without any field terminator (such as the text
      `undefined`) decodes to nothing. */
  lemma UnterminatedRejected(s: string)
    requires s != "" && Sep !in s
    ensures Decode(s) == None
  {
    UnterminatedField(s);
  }
}

=== FILE: dates.dfy ===
/** Decimal numerals, zero padding, and the calendar-date key `YYYY-MM-DD`
    (calendar date in the extended format of ISO 8601:2004, section 4.1.2.2)
    built in src/pages/client/NewBookingPage.tsx and
    src/pages/owner/OwnerBookingsPage.tsx; also the `HH:MM` times compared as
    strings in src/pages/owner/OwnerDisabledSlotsPage.tsx. */
module Dates {
  import opened Types
  import opened Text

  predicate IsDigit(c: char) { '0' <= c <= '9' }

  function DigitChar(d: nat): (c: char)
    requires d < 10
    ensures IsDigit(c)
  {
    ('0' as int + d) as char
  }

  function DigitValue(c: char): int {
    c as int - '0' as int
  }

  function Power10(w: nat): (p: nat)
    ensures p >= 1
  {
    if w == 0 then 1 else 10 * Power10(w - 1)
  }

  /** `String(n)` of a non-negative integer. */
  function Decimal(n: nat): (r: string)
    ensures |r| >= 1
    decreases n
  {
    if n < 10 then [DigitChar(n)] else Decimal(n / 10) + [DigitChar(n % 10)]
  }

  /** `String(n)` of any integer. */
  function IntText(n: int): string {
    if n < 0 then "-" + Decimal(-n) else Decimal(n)
  }

  /** `padStart(2, "0")`. */
  function PadStart2(s: string): (r: string)
    ensures |s| >= 2 ==> r == s
    ensures |s| < 2 ==> |r| == 2 && r[2 - |s|..] == s && (forall i :: 0 <= i < 2 - |s| ==> r[i] == '0')
  {
    if |s| >= 2 then s else if |s| == 1 then "0" + s else "00"
  }

  /** The `w` lowest decimal digits of `n`, leading zeros included. */
  function Fixed(n: nat, w: nat): (r: string)
    ensures |r| == w
    decreases w
  {
    if w == 0 then "" else Fixed(n / 10, w - 1) + [DigitChar(n % 10)]
  }

  /** The value of a string of digits. */
  function Value(s: string): int
    decreases |s|
  {
    if |s| == 0 then 0 else 10 * Value(s[..|s| - 1]) + DigitValue(s[|s| - 1])
  }

  lemma {:induction false} ValueFixed(n: nat, w: nat)
    requires n < Power10(w)
    ensures Value(Fixed(n, w)) == n
    decreases w
  {
    if w > 0 {
      var f := Fixed(n, w);
      assert f[..w - 1] == Fixed(n / 10, w - 1);
      ValueFixed(n / 10, w - 1);
    }
  }

  lemma FixedInjective(n: nat, m: nat, w: nat)
    requires n < Power10(w) && m < Power10(w)
    ensures Fixed(n, w) == Fixed(m, w) <==> n == m
  {
    ValueFixed(n, w);
    ValueFixed(m, w);
  }

  /** A numeral with exactly `w` digits is its own `w`-digit form. */
  lemma {:induction false} DecimalIsFixed(n: nat, w: nat)
    requires w >= 1 && Power10(w - 1) <= n < Power10(w)
    ensures Decimal(n) == Fixed(n, w)
    decreases w
  {
    if w > 1 {
      DecimalIsFixed(n / 10, w - 1);
    } else {
      assert n / 10 == 0;
    }
  }

  /** Padding a number below 100 to two places gives its two-digit form. */
  lemma PadIsFixed(n: nat)
    requires n < 100
    ensures PadStart2(Decimal(n)) == Fixed(n, 2)
  {
    Powers();
    if n >= 10 {
      DecimalIsFixed(n, 2);
    } else {
      assert Fixed(n, 2) == [DigitChar(0)] + [DigitChar(n)];
    }
  }

  lemma LexSingle(c: char, e: char)
    ensures LexLess([c], [e]) <==> c < e
  {
    assert [c][1..] == [] && [e][1..] == [];
  }

  /** Fixed-width numerals compare as strings the way the numbers compare. */
  lemma {:induction false} FixedOrder(n: nat, m: nat, w: nat)
    requires n < Power10(w) && m < Power10(w)
    ensures LexLess(Fixed(n, w), Fixed(m, w)) <==> n < m
    decreases w
  {
    if w == 0 {
      assert n == 0 && m == 0;
    } else {
      var a := Fixed(n / 10, w - 1);
      var b := Fixed(m / 10, w - 1);
      LexLessAppend(a, [DigitChar(n % 10)], b, [DigitChar(m % 10)]);
      LexSingle(DigitChar(n % 10), DigitChar(m % 10));
      FixedOrder(n / 10, m / 10, w - 1);
      FixedInjective(n / 10, m / 10, w - 1);
    }
  }

  /** A common separator in front of two texts does not change their order. */
  lemma LexSep(c: char, x: string, y: string)
    ensures LexLess([c] + x, [c] + y) <==> LexLess(x, y)
  {
    assert ([c] + x)[1..] == x && ([c] + y)[1..] == y;
  }

  /** Two texts made of equally wide parts joined by a separator compare part by part. */
  lemma LexJoined(c: char, a1: string, a2: string, b1: string, b2: string)
    requires |a1| == |b1|
    ensures LexLess(a1 + [c] + a2, b1 + [c] + b2) <==> LexLess(a1, b1) || (a1 == b1 && LexLess(a2, b2))
  {
    assert a1 + [c] + a2 == a1 + ([c] + a2);
    assert b1 + [c] + b2 == b1 + ([c] + b2);
    LexLessAppend(a1, [c] + a2, b1, [c] + b2);
    LexSep(c, a2, b2);
  }

  lemma Powers()
    ensures Power10(1) == 10 && Power10(2) == 100 && Power10(3) == 1000 && Power10(4) == 10000
  {
  }

  /** The local calendar date of an instant: `getFullYear()`, `getMonth()`
      (from 0) and `getDate()`. */
  datatype LocalDate = LocalDate(year: int, month0: int, day: int)

  predicate ValidDate(d: LocalDate) {
    0 <= d.month0 <= 11 && 1 <= d.day <= 31
  }

  predicate FourDigitYear(d: LocalDate) {
    1000 <= d.year <= 9999
  }

  /** Calendar order of dates. */
  predicate Before(a: LocalDate, b: LocalDate) {
    a.year < b.year || (a.year == b.year && (a.month0 < b.month0 || (a.month0 == b.month0 && a.day < b.day)))
  }

  /** `toLocalISODate`: year, month from 1, day, joined by dashes, with month
      and day padded to two digits. */
  function DateKey(d: LocalDate): string
    requires ValidDate(d)
  {
    IntText(d.year) + "-" + PadStart2(Decimal(d.month0 + 1)) + "-" + PadStart2(Decimal(d.day))
  }

  /** With a four-digit year every part of the key has a fixed width. */
  lemma DateKeyFixed(d: LocalDate)
    requires ValidDate(d) && FourDigitYear(d)
    ensures DateKey(d) == Fixed(d.year, 4) + "-" + Fixed(d.month0 + 1, 2) + "-" + Fixed(d.day, 2)
  {
    Powers();
    DecimalIsFixed(d.year, 4);
    PadIsFixed(d.month0 + 1);
    PadIsFixed(d.day);
  }

  /** Reads a ten-character key back into year, month (from 1) and day. */
  function ParseKey(k: string): Option<(int, int, int)> {
    if |k| != 10 || k[4] != '-' || k[7] != '-' then None
    else Some((Value(k[..4]), Value(k[5..7]), Value(k[8..])))
  }

  /** The three parts of a `YYYY-MM-DD` text sit at fixed offsets. */
  lemma KeySlices(y: string, m: string, dd: string)
    requires |y| == 4 && |m| == 2 && |dd| == 2
    ensures var k := y + "-" + m + "-" + dd;
      |k| == 10 && k[4] == '-' && k[7] == '-' && k[..4] == y && k[5..7] == m && k[8..] == dd
  {
  }

  /** With a four-digit year the key has the fixed `YYYY-MM-DD` shape and
      reads back as the date it was built from. */
  lemma KeyRoundTrip(d: LocalDate)
    requires ValidDate(d) && FourDigitYear(d)
    ensures |DateKey(d)| == 10
    ensures ParseKey(DateKey(d)) == Some((d.year, d.month0 + 1, d.day))
  {
    DateKeyFixed(d);
    KeySlices(Fixed(d.year, 4), Fixed(d.month0 + 1, 2), Fixed(d.day, 2));
    ValueFixed(d.year, 4);
    ValueFixed(d.month0 + 1, 2);
    ValueFixed(d.day, 2);
  }

  /** Keys of equally wide parts compare part by part, year first. */
  lemma KeyTextOrder(ya: string, ma: string, da: string, yb: string, mb: string, db: string)
    requires |ya| == |yb| && |ma| == |mb|
    ensures LexLess(ya + "-" + ma + "-" + da, yb + "-" + mb + "-" + db) <==>
      LexLess(ya, yb) || (ya == yb && (LexLess(ma, mb) || (ma == mb && LexLess(da, db))))
  {
    assert ya + "-" + ma + "-" + da == ya + ['-'] + (ma + ['-'] + da);
    assert yb + "-" + mb + "-" + db == yb + ['-'] + (mb + ['-'] + db);
    LexJoined('-', ya, ma + ['-'] + da, yb, mb + ['-'] + db);
    LexJoined('-', ma, da, mb, db);
  }

  /** Fixed-width numerals compare, and are equal, as their numbers are. */
  lemma FixedCompare(n: nat, m: nat, w: nat)
    requires n < Power10(w) && m < Power10(w)
    ensures LexLess(Fixed(n, w), Fixed(m, w)) <==> n < m
    ensures Fixed(n, w) == Fixed(m, w) <==> n == m
  {
    FixedOrder(n, m, w);
    FixedInjective(n, m, w);
  }

  /** With four-digit years, string order of keys is calendar order. */
  lemma KeyOrder(a: LocalDate, b: LocalDate)
    requires ValidDate(a) && FourDigitYear(a) && ValidDate(b) && FourDigitYear(b)
    ensures LexLess(DateKey(a), DateKey(b)) <==> Before(a, b)
  {
    Powers();
    DateKeyFixed(a);
    DateKeyFixed(b);
    KeyTextOrder(Fixed(a.year, 4), Fixed(a.month0 + 1, 2), Fixed(a.day, 2),
                 Fixed(b.year, 4), Fixed(b.month0 + 1, 2), Fixed(b.day, 2));
    FixedCompare(a.year, b.year, 4);
    FixedCompare(a.month0 + 1, b.month0 + 1, 2);
    FixedCompare(a.day, b.day, 2);
  }

  /** Keys of valid dates with four-digit years are equal only for equal dates. */
  lemma KeyInjective(a: LocalDate, b: LocalDate)
    requires ValidDate(a) && FourDigitYear(a) && ValidDate(b) && FourDigitYear(b)
    ensures DateKey(a) == DateKey(b) <==> a == b
  {
    KeyRoundTrip(a);
    KeyRoundTrip(b);
  }

  /** A wall-clock time written `HH:MM`. */
  function TimeText(h: nat, m: nat): string {
    Fixed(h, 2) + ":" + Fixed(m, 2)
  }

  /** String comparison of `HH:MM` times is comparison of minutes since midnight. */
  lemma TimeOrder(h1: nat, m1: nat, h2: nat, m2: nat)
    requires h1 < 100 && h2 < 100 && m1 < 60 && m2 < 60
    ensures LexLess(TimeText(h1, m1), TimeText(h2, m2)) <==> h1 * 60 + m1 < h2 * 60 + m2
  {
    Powers();
    assert TimeText(h1, m1) == Fixed(h1, 2) + [':'] + Fixed(m1, 2);
    assert TimeText(h2, m2) == Fixed(h2, 2) + [':'] + Fixed(m2, 2);
    LexJoined(':', Fixed(h1, 2), Fixed(m1, 2), Fixed(h2, 2), Fixed(m2, 2));
    FixedCompare(h1, h2, 2);
    FixedCompare(m1, m2, 2);
    MinutesOrder(h1, m1, h2, m2);
  }

  lemma MinutesOrder(h1: nat, m1: nat, h2: nat, m2: nat)
    requires m1 < 60 && m2 < 60
    ensures h1 * 60 + m1 < h2 * 60 + m2 <==> h1 < h2 || (h1 == h2 && m1 < m2)
  {
    if h1 < h2 {
      assert h1 * 60 + 60 <= h2 * 60;
    } else if h1 > h2 {
      assert h2 * 60 + 60 <= h1 * 60;
    }
  }
}

=== FILE: failures.dfy ===
/** What a failed call throws, and the three message-precedence rules the
    pages apply to it. */
module Failures {
  import opened Types

  /** The `response.data` part of an HTTP client error. */
  datatype ErrorBody = ErrorBody(message: Option<string>, code: Option<string>)

  /** A thrown value. `isError` is `err instanceof Error` (then `message` is
      its message); `response` is present when the value has a `response` key. */
  datatype Thrown = Thrown(isError: bool, message: string, response: Option<ErrorBody>)

  /** The result of a network call, supplied from outside the model. */
  datatype Outcome<+T> = Ok(value: T) | Fail(error: Thrown)

  /** An `Error` raised by the client code itself. */
  function Raise(message: string): (e: Thrown)
    ensures e.isError && e.message == message && e.response.None?
  {
    Thrown(true, message, None)
  }

  /** The server's message, when the error carries a non-empty one. */
  function ServerMessage(e: Thrown): Option<string> {
    if e.response.Some? && Truthy(e.response.value.message) then e.response.value.message else None
  }

  /** `err instanceof Error ? err.message : fallback`. */
  function ErrorMessage(e: Thrown, fallback: string): (r: string)
    ensures e.isError ==> r == e.message
    ensures !e.isError ==> r == fallback
  {
    if e.isError then e.message else fallback
  }

  /** Server message first, then the `Error` message, then the fallback. */
  function DisplayMessage(e: Thrown, fallback: string): (r: string)
    ensures ServerMessage(e).Some? ==> r == ServerMessage(e).value
    ensures ServerMessage(e).None? && e.isError ==> r == e.message
    ensures ServerMessage(e).None? && !e.isError ==> r == fallback
  {
    match ServerMessage(e)
    case Some(m) => m
    case None => ErrorMessage(e, fallback)
  }

  /** Server message first, then the fallback (the `Error` message is ignored). */
  function ServerMessageOr(e: Thrown, fallback: string): (r: string)
    ensures ServerMessage(e).Some? ==> r == ServerMessage(e).value
    ensures ServerMessage(e).None? ==> r == fallback
  {
    ServerMessage(e).GetOr(fallback)
  }
}

=== FILE: layouts.dfy ===
/** The two page shells (src/components/layout/OwnerLayout.tsx and
    ClientLayout.tsx): the avatar initials and the sidebar flag. */
module Layouts {
  import opened Types
  import opened Text

  /** `n[0]` of one segment, which `join` turns into nothing when the
      segment is empty. */
  function Head(part: string): (r: string)
    ensures |r| <= 1
  {
    if part == "" then "" else [part[0]]
  }

  /** `.map((n) => n[0]).join("")`. */
  function Heads(parts: seq<string>): string
    decreases |parts|
  {
    if |parts| == 0 then "" else Head(parts[0]) + Heads(parts[1..])
  }

  /** The characters that begin a space-separated word: non-space characters
      at the start or right after a space. `atStart` says whether the text
      begins a word. */
  function WordStarts(s: string, atStart: bool): (r: string)
    ensures |r| <= |s|
    decreases |s|
  {
    if |s| == 0 then ""
    else if s[0] == ' ' then WordStarts(s[1..], true)
    else (if atStart then [s[0]] else "") + WordStarts(s[1..], false)
  }

  /** The heads of the segments are the word starts. */
  lemma {:induction false} HeadsAreWordStarts(s: string)
    ensures Heads(Split(s, ' ')) == WordStarts(s, true)
    ensures Heads(Split(s, ' ')[1..]) == WordStarts(s, false)
    decreases |s|
  {
    if |s| > 0 {
      HeadsAreWordStarts(s[1..]);
      var rest := Split(s[1..], ' ');
      if s[0] == ' ' {
        assert Split(s, ' ') == [""] + rest;
        assert ([""] + rest)[1..] == rest;
      } else {
        var parts := Split(s, ' ');
        assert parts == [[s[0]] + rest[0]] + rest[1..];
        assert parts[1..] == rest[1..];
        assert Head(parts[0]) == [s[0]];
      }
    } else {
      assert Split(s, ' ') == [""];
    }
  }

  /** The layouts' avatar initials: the first character of each segment of
      the name split at single spaces, at most two of them, upper-cased; the
      fallback when there is no name or no segment has a first character. */
  function LayoutInitials(fullName: Option<string>, fallback: string): (r: string)
    ensures fullName.None? || WordStarts(fullName.value, true) == "" ==> r == fallback
    ensures fullName.Some? && WordStarts(fullName.value, true) != "" ==>
              var starts := WordStarts(fullName.value, true);
              && 1 <= |r| <= 2 && NoLower(r)
              && r == Upper(starts[..if |starts| < 2 then |starts| else 2])
  {
    match fullName
    case None => fallback
    case Some(name) =>
      var heads := Heads(Split(name, ' '));
      HeadsAreWordStarts(name);
      var picked := Upper(heads[..if |heads| < 2 then |heads| else 2]);
      if picked == "" then fallback else picked
  }

  /** The owner shell's initials, `"BB"` by default. */
  function OwnerInitials(user: Option<User>): (r: string)
    ensures 1 <= |r| <= 2 && NoLower(r)
    ensures user.None? ==> r == "BB"
  {
    LayoutInitials(if user.Some? then Some(user.value.fullName) else None, "BB")
  }

  /** The client shell's initials, `"CL"` by default. */
  function ClientInitials(user: Option<User>): (r: string)
    ensures 1 <= |r| <= 2 && NoLower(r)
    ensures user.None? ==> r == "CL"
  {
    LayoutInitials(if user.Some? then Some(user.value.fullName) else None, "CL")
  }

  /** A name that does not begin with a space gives initials starting with
      its first character, upper-cased. */
  lemma LayoutInitialsFirst(name: string, fallback: string)
    requires |name| > 0 && name[0] != ' '
    ensures var r := LayoutInitials(Some(name), fallback);
            |r| > 0 && r[0] == UpperChar(name[0])
  {
    var starts := WordStarts(name, true);
    assert starts[0] == name[0];
  }

  /** The mobile sidebar. */
  datatype Shell = Shell(sidebarOpen: bool)

  function OpenSidebar(s: Shell): (r: Shell)
    ensures r.sidebarOpen
  {
    Shell(true)
  }

  function CloseSidebar(s: Shell): (r: Shell)
    ensures !r.sidebarOpen
  {
    Shell(false)
  }
}

=== FILE: owner_blocks.dfy ===
/** The owner's blocked-time page (src/pages/owner/OwnerDisabledSlotsPage.tsx):
    the block form, its presets and validation, the full-day test and the
    per-block options menu. */
module OwnerBlocks {
  import opened Types
  import opened Failures
  import opened Text
  import opened Dates

  const RangeErrorMessage := "La hora de inicio debe ser menor que la hora de fin."
  const BlockCreatedMessage := "Bloqueo creado exitosamente"
  const CreateBlockFallback := "Error al crear bloqueo"
  const DeleteBlockFallback := "Error al eliminar bloqueo"
  const DefaultStart := "09:00"
  const DefaultEnd := "18:00"

  datatype BlockForm = BlockForm(
    selectedDate: string, reason: string, isFullDay: bool,
    startTime: string, endTime: string,
    error: string, success: string, openMenu: Option<string>)

  /** The page as mounted; `today` is the UTC calendar day of the clock. */
  function OpenBlockForm(today: string): (f: BlockForm)
    ensures f.selectedDate == today && !f.isFullDay && f.reason == ""
    ensures f.startTime == DefaultStart && f.endTime == DefaultEnd
    ensures LexLess(f.startTime, f.endTime)
    ensures f.error == "" && f.success == "" && f.openMenu.None?
  {
    assert LexLess(DefaultStart, DefaultEnd) by {
      assert DefaultStart[0] < DefaultEnd[0];
    }
    BlockForm(today, "", false, DefaultStart, DefaultEnd, "", "", None)
  }

  /** The block request; times are left out for a full day, and an empty
      reason is left out. */
  datatype BlockRequest = BlockRequest(
    date: string, fullDay: bool,
    startTime: Option<string>, endTime: Option<string>, reason: Option<string>)

  /** `handleSubmit`: clear both messages, refuse a range whose start does not
      come before its end (as strings), otherwise send the request. */
  function SubmitBlock(f: BlockForm): (r: (BlockForm, Option<BlockRequest>))
    ensures r.1.None? <==> !f.isFullDay && !LexLess(f.startTime, f.endTime)
    ensures r.0 == f.(error := if r.1.None? then RangeErrorMessage else "", success := "")
    ensures r.1.Some? ==>
              && r.1.value.date == f.selectedDate && r.1.value.fullDay == f.isFullDay
              && (r.1.value.startTime.None? <==> f.isFullDay) && (r.1.value.endTime.None? <==> f.isFullDay)
              && (!f.isFullDay ==> r.1.value.startTime == Some(f.startTime) && r.1.value.endTime == Some(f.endTime))
              && (r.1.value.reason.None? <==> f.reason == "")
              && (r.1.value.reason.Some? ==> r.1.value.reason.value == f.reason)
  {
    var cleared := f.(error := "", success := "");
    if !f.isFullDay && !LexLess(f.startTime, f.endTime) then
      (cleared.(error := RangeErrorMessage), None)
    else
      (cleared, Some(BlockRequest(
        f.selectedDate, f.isFullDay,
        if f.isFullDay then None else Some(f.startTime),
        if f.isFullDay then None else Some(f.endTime),
        if f.reason == "" then None else Some(f.reason))))
  }

  /** With times written `HH:MM`, the string check is the clock check: a range
      is accepted exactly when it starts earlier in the day than it ends. */
  lemma RangeCheckIsClockOrder(f: BlockForm, h1: nat, m1: nat, h2: nat, m2: nat)
    requires h1 < 24 && h2 < 24 && m1 < 60 && m2 < 60
    requires !f.isFullDay && f.startTime == TimeText(h1, m1) && f.endTime == TimeText(h2, m2)
    ensures SubmitBlock(f).1.Some? <==> h1 * 60 + m1 < h2 * 60 + m2
  {
    TimeOrder(h1, m1, h2, m2);
  }

  datatype Preset = Lunch | Break | Maintenance

  /** `applyPreset`. */
  function ApplyPreset(f: BlockForm, p: Preset): (r: BlockForm)
    ensures r.error == "" && r.success == ""
    ensures r.selectedDate == f.selectedDate && r.openMenu == f.openMenu
    ensures p == Lunch ==> !r.isFullDay && r.startTime == "13:00" && r.endTime == "14:00" && r.reason == "Almuerzo"
    ensures p == Break ==> !r.isFullDay && r.startTime == "16:00" && r.endTime == "16:30" && r.reason == "Pausa"
    ensures p == Maintenance ==>
              r.isFullDay && r.reason == "Mantenimiento / Feriado"
              && r.startTime == f.startTime && r.endTime == f.endTime
  {
    var cleared := f.(success := "", error := "");
    match p
    case Lunch => cleared.(isFullDay := false, startTime := "13:00", endTime := "14:00", reason := "Almuerzo")
    case Break => cleared.(isFullDay := false, startTime := "16:00", endTime := "16:30", reason := "Pausa")
    case Maintenance => cleared.(isFullDay := true, reason := "Mantenimiento / Feriado")
  }

  /** Every preset produces a form that passes validation, with its reason. */
  lemma PresetsPass(f: BlockForm, p: Preset)
    ensures SubmitBlock(ApplyPreset(f, p)).1.Some?
    ensures SubmitBlock(ApplyPreset(f, p)).1.value.reason == Some(ApplyPreset(f, p).reason)
  {
    var g := ApplyPreset(f, p);
    if p == Lunch {
      assert g.startTime[1] < g.endTime[1];
    } else if p == Break {
      assert g.startTime[3] < g.endTime[3];
    }
  }

  /** Milliseconds from 00:00:00.000 to 23:59:59.999 of one day. */
  const LastMillisecond := 86399999

  /** `isBlockFullDay`, on instants in milliseconds: `None` stands for a date
      that does not parse (`NaN`, which compares false). */
  function IsBlockFullDay(dayStart: Option<int>, blockStart: Option<int>, blockEnd: Option<int>): (full: bool)
  {
    if dayStart.None? || blockStart.None? || blockEnd.None? then false
    else blockStart.value <= dayStart.value && blockEnd.value >= dayStart.value + LastMillisecond
  }

  /** The instant `t` falls on the day starting at `dayStart`. */
  predicate InDay(dayStart: int, t: int) {
    dayStart <= t <= dayStart + LastMillisecond
  }

  /** The block's interval contains every millisecond of the day. */
  ghost predicate CoversDay(dayStart: int, blockStart: int, blockEnd: int) {
    forall t :: InDay(dayStart, t) ==> blockStart <= t <= blockEnd
  }

  /** A block is shown as full-day exactly when it covers the whole day. */
  lemma FullDayMeansCovers(dayStart: Option<int>, blockStart: Option<int>, blockEnd: Option<int>)
    ensures IsBlockFullDay(dayStart, blockStart, blockEnd) <==>
              dayStart.Some? && blockStart.Some? && blockEnd.Some?
              && CoversDay(dayStart.value, blockStart.value, blockEnd.value)
  {
    if dayStart.Some? && blockStart.Some? && blockEnd.Some? && CoversDay(dayStart.value, blockStart.value, blockEnd.value) {
      var t1 := dayStart.value;
      var t2 := dayStart.value + LastMillisecond;
      assert InDay(dayStart.value, t1) && InDay(dayStart.value, t2);
    }
  }

  /** `toggleMenu`: open the menu of `id`, or close it if it is the open one. */
  function ToggleMenu(open: Option<string>, id: string): (r: Option<string>)
    ensures r.None? <==> open == Some(id)
    ensures r.Some? ==> r.value == id
  {
    if open == Some(id) then None else Some(id)
  }

  /** Toggling the same menu twice restores the state exactly when no menu,
      or that same menu, was open. */
  lemma ToggleTwice(open: Option<string>, id: string)
    ensures ToggleMenu(ToggleMenu(open, id), id) == open <==> open.None? || open == Some(id)
  {
  }

  /** With another block's menu open, toggling the same menu twice leaves
      no menu open. */
  lemma ToggleTwiceElsewhere(open: Option<string>, id: string)
    requires open.Some? && open != Some(id)
    ensures ToggleMenu(ToggleMenu(open, id), id).None?
  {
  }

  /** The create mutation's `onSuccess`. */
  function BlockCreated(f: BlockForm): (r: BlockForm)
    ensures r.success == BlockCreatedMessage && r.error == ""
    ensures r.reason == "" && !r.isFullDay
    ensures r.startTime == f.startTime && r.endTime == f.endTime && r.selectedDate == f.selectedDate
    ensures r.openMenu == f.openMenu
  {
    f.(success := BlockCreatedMessage, reason := "", error := "", isFullDay := false)
  }

  /** The create mutation's `onError`: the server's message or the fallback. */
  function BlockCreateFailed(f: BlockForm, e: Thrown): (r: BlockForm)
    ensures r.success == ""
    ensures ServerMessage(e).Some? ==> r.error == ServerMessage(e).value
    ensures ServerMessage(e).None? ==> r.error == CreateBlockFallback
    ensures r.reason == f.reason && r.isFullDay == f.isFullDay
    ensures r.selectedDate == f.selectedDate && r.startTime == f.startTime && r.endTime == f.endTime
    ensures r.openMenu == f.openMenu
  {
    f.(error := ServerMessageOr(e, CreateBlockFallback), success := "")
  }

  /** The "Eliminar" item: nothing happens unless the owner confirms; a
      deletion closes the menu; a failure shows the server's message or the
      fallback and leaves the menu as it was. Returns the new form and the
      id of the block whose deletion was sent, if any. */
  function DeleteBlock(f: BlockForm, id: string, confirmed: bool, reply: Outcome<()>): (r: (BlockForm, Option<string>))
    ensures r.1 == (if confirmed then Some(id) else None)
    ensures !confirmed ==> r.0 == f
    ensures confirmed && reply.Ok? ==> r.0 == f.(openMenu := None)
    ensures confirmed && reply.Fail? ==>
              r.0.openMenu == f.openMenu && r.0.success == f.success
              && r.0.selectedDate == f.selectedDate && r.0.reason == f.reason && r.0.isFullDay == f.isFullDay
              && r.0.startTime == f.startTime && r.0.endTime == f.endTime
              && r.0.error == (if ServerMessage(reply.error).Some? then ServerMessage(reply.error).value else DeleteBlockFallback)
  {
    if !confirmed then (f, None)
    else
      match reply
      case Ok(_) => (f.(openMenu := None), Some(id))
      case Fail(e) => (f.(error := ServerMessageOr(e, DeleteBlockFallback)), Some(id))
  }
}

=== FILE: owner_bookings.dfy ===
/** The owner's agenda (src/pages/owner/OwnerBookingsPage.tsx): header
    capitalisation, bookings grouped by calendar day, the status actions and
    badges, and the list filters. */
module OwnerBookings {
  import opened Types
  import opened Text
  import opened Dates
  import ClientPages

  // --------------------------------------------------------- capitalizeWords

  /** One segment: first character upper-cased, the rest as it is. */
  function CapWord(w: string): string {
    if w == "" then "" else [UpperChar(w[0])] + w[1..]
  }

  function CapAll(parts: seq<string>): (r: seq<string>)
    ensures |r| == |parts|
    ensures forall i :: 0 <= i < |parts| ==> r[i] == CapWord(parts[i])
  {
    seq(|parts|, i requires 0 <= i < |parts| => CapWord(parts[i]))
  }

  /** `capitalizeWords`: lower-case, split at single spaces, capitalise each
      segment, join again. The result has as many segments as the input,
      segment `i` being segment `i` of the input lower-cased and capitalised,
      and the same length. */
  function CapitalizeWords(text: string): (r: string)
    ensures |r| == |text|
    ensures Split(r, ' ') == CapAll(LowerAll(Split(text, ' ')))
  {
    CapitalizeFacts(text);
    Join(CapAll(Split(Lower(text), ' ')), ' ')
  }

  lemma CapWordKeepsSpaces(w: string)
    requires ' ' !in w
    ensures ' ' !in CapWord(w) && |CapWord(w)| == |w|
  {
    if w != "" {
      assert CapWord(w)[0] == UpperChar(w[0]);
      assert forall k :: 1 <= k < |w| ==> CapWord(w)[k] == w[k];
    }
  }

  lemma CapitalizeFacts(text: string)
    ensures |Join(CapAll(Split(Lower(text), ' ')), ' ')| == |text|
    ensures Split(Join(CapAll(Split(Lower(text), ' ')), ' '), ' ') == CapAll(LowerAll(Split(text, ' ')))
  {
    var parts := Split(Lower(text), ' ');
    var caps := CapAll(parts);
    SplitLower(text, ' ');
    forall i | 0 <= i < |parts|
      ensures ' ' !in caps[i] && |caps[i]| == |parts[i]|
    {
      CapWordKeepsSpaces(parts[i]);
    }
    SplitJoin(caps, ' ');
    JoinLength(caps, parts, ' ');
    JoinSplit(Lower(text), ' ');
  }

  /** Lower-casing a capitalised lower-case segment undoes the capital. */
  lemma LowerCapWord(l: string)
    requires NoUpper(l)
    ensures Lower(CapWord(l)) == l
  {
    if l != "" {
      assert Lower(CapWord(l))[0] == LowerChar(UpperChar(l[0]));
    }
  }

  /** Capitalising twice is capitalising once. */
  lemma CapitalizeIdempotent(text: string)
    ensures CapitalizeWords(CapitalizeWords(text)) == CapitalizeWords(text)
  {
    var r := CapitalizeWords(text);
    var q := CapAll(LowerAll(Split(text, ' ')));
    assert Split(r, ' ') == q;
    SplitLower(r, ' ');
    forall i | 0 <= i < |q|
      ensures CapWord(Lower(q[i])) == q[i]
    {
      LowerCapWord(Lower(Split(text, ' ')[i]));
    }
    assert CapAll(LowerAll(q)) == q;
    assert CapAll(Split(Lower(text), ' ')) == q by {
      SplitLower(text, ' ');
    }
  }

  // ----------------------------------------------------- groupBookingsByDate

  /** A booking with the local calendar day of its start time. */
  datatype Dated = Dated(day: LocalDate, booking: Booking)

  /** One entry of the grouping: the `YYYY-MM-DD` key, the day it was built
      from (what `new Date(key)` reads back), and the bookings of that day. */
  datatype DayGroup = DayGroup(key: string, day: LocalDate, bookings: seq<Booking>)

  /** Days as the local clock produces them, with four-digit years. */
  predicate WellDated(xs: seq<Dated>) {
    forall i :: 0 <= i < |xs| ==> ValidDate(xs[i].day) && FourDigitYear(xs[i].day)
  }

  /** The bookings whose day has the given key, in input order. */
  function BookingsWithKey(xs: seq<Dated>, key: string): seq<Booking>
    requires WellDated(xs)
    decreases |xs|
  {
    if |xs| == 0 then []
    else
      var last := xs[|xs| - 1];
      BookingsWithKey(xs[..|xs| - 1], key) + (if DateKey(last.day) == key then [last.booking] else [])
  }

  function KeysOf(groups: seq<DayGroup>): set<string> {
    set i | 0 <= i < |groups| :: groups[i].key
  }

  /** The position of the group with this key, or -1. */
  function FindGroup(groups: seq<DayGroup>, key: string): (i: int)
    ensures -1 <= i < |groups|
    ensures i == -1 <==> key !in KeysOf(groups)
    ensures i >= 0 ==> groups[i].key == key
    decreases |groups|
  {
    if |groups| == 0 then -1
    else if groups[0].key == key then 0
    else
      var j := FindGroup(groups[1..], key);
      assert KeysOf(groups) == {groups[0].key} + KeysOf(groups[1..]) by {
        forall k | k in KeysOf(groups) ensures k in {groups[0].key} + KeysOf(groups[1..]) {
          var i :| 0 <= i < |groups| && groups[i].key == k;
          if i > 0 { assert groups[1..][i - 1].key == k; }
        }
        forall k | k in KeysOf(groups[1..]) ensures k in KeysOf(groups) {
          var i :| 0 <= i < |groups[1..]| && groups[1..][i].key == k;
          assert groups[i + 1].key == k;
        }
      }
      if j == -1 then -1 else j + 1
  }

  /** The body of the `forEach`: push onto the day's group, creating it
      (at the end) on first sight of the key. */
  function AddBooking(groups: seq<DayGroup>, x: Dated): seq<DayGroup>
    requires ValidDate(x.day)
  {
    var key := DateKey(x.day);
    var i := FindGroup(groups, key);
    if i == -1 then groups + [DayGroup(key, x.day, [x.booking])]
    else groups[i := groups[i].(bookings := groups[i].bookings + [x.booking])]
  }

  /** The groups in order of first appearance, before sorting. */
  function Collect(xs: seq<Dated>): seq<DayGroup>
    requires WellDated(xs)
    decreases |xs|
  {
    if |xs| == 0 then [] else AddBooking(Collect(xs[..|xs| - 1]), xs[|xs| - 1])
  }

  /** Every group is keyed by its own day and holds exactly that day's bookings. */
  ghost predicate GroupsSound(groups: seq<DayGroup>, xs: seq<Dated>)
    requires WellDated(xs)
  {
    forall i :: 0 <= i < |groups| ==> GroupSound(groups[i], xs)
  }

  /** A group holds a valid day, that day's key, and exactly the (non-empty)
      bookings of that key. */
  ghost predicate GroupSound(g: DayGroup, xs: seq<Dated>)
    requires WellDated(xs)
  {
    && ValidDate(g.day) && FourDigitYear(g.day)
    && g.key == DateKey(g.day)
    && g.bookings == BookingsWithKey(xs, g.key)
    && g.bookings != []
  }

  ghost predicate KeysDistinct(groups: seq<DayGroup>) {
    forall i, j :: 0 <= i < j < |groups| ==> groups[i].key != groups[j].key
  }

  /** Every booking's day has a group. */
  ghost predicate Covers(groups: seq<DayGroup>, xs: seq<Dated>)
    requires WellDated(xs)
  {
    forall k :: 0 <= k < |xs| ==> DateKey(xs[k].day) in KeysOf(groups)
  }

  /** `groups` is a grouping of `xs` by day key. */
  ghost predicate GroupsOf(groups: seq<DayGroup>, xs: seq<Dated>)
    requires WellDated(xs)
  {
    GroupsSound(groups, xs) && KeysDistinct(groups) && Covers(groups, xs)
  }

  /** A key no booking has collects nothing. */
  lemma {:induction false} NoneWithKey(xs: seq<Dated>, key: string)
    requires WellDated(xs)
    requires forall k :: 0 <= k < |xs| ==> DateKey(xs[k].day) != key
    ensures BookingsWithKey(xs, key) == []
    decreases |xs|
  {
    if |xs| > 0 {
      NoneWithKey(xs[..|xs| - 1], key);
    }
  }

  lemma KeysAppend(groups: seq<DayGroup>, g: DayGroup)
    ensures KeysOf(groups + [g]) == KeysOf(groups) + {g.key}
  {
    var r := groups + [g];
    forall k | k in KeysOf(r) ensures k in KeysOf(groups) + {g.key} {
      var j :| 0 <= j < |r| && r[j].key == k;
      if j < |groups| { assert groups[j].key == k; }
    }
    forall k | k in KeysOf(groups) ensures k in KeysOf(r) {
      var j :| 0 <= j < |groups| && groups[j].key == k;
      assert r[j].key == k;
    }
    assert r[|groups|].key == g.key;
  }

  lemma KeysUpdate(groups: seq<DayGroup>, i: nat, g: DayGroup)
    requires i < |groups| && g.key == groups[i].key
    ensures KeysOf(groups[i := g]) == KeysOf(groups)
  {
    var r := groups[i := g];
    forall k | k in KeysOf(r) ensures k in KeysOf(groups) {
      var j :| 0 <= j < |r| && r[j].key == k;
      assert groups[j].key == k;
    }
    forall k | k in KeysOf(groups) ensures k in KeysOf(r) {
      var j :| 0 <= j < |groups| && groups[j].key == k;
      assert r[j].key == k;
    }
  }

  /** Adding the last booking to a grouping of the others gives a grouping of all. */
  lemma CollectStep(groups: seq<DayGroup>, xs: seq<Dated>)
    requires WellDated(xs) && |xs| > 0
    requires GroupsOf(groups, xs[..|xs| - 1])
    ensures GroupsOf(AddBooking(groups, xs[|xs| - 1]), xs)
  {
    if FindGroup(groups, DateKey(xs[|xs| - 1].day)) == -1 {
      CollectNewDay(groups, xs);
    } else {
      CollectKnownDay(groups, xs);
    }
  }

  /** The bookings of a key, one booking later. */
  lemma BookingsWithKeyLast(xs: seq<Dated>, key: string)
    requires WellDated(xs) && |xs| > 0
    ensures BookingsWithKey(xs, key) == BookingsWithKey(xs[..|xs| - 1], key)
              + (if DateKey(xs[|xs| - 1].day) == key then [xs[|xs| - 1].booking] else [])
  {
  }

  lemma CollectNewDay(groups: seq<DayGroup>, xs: seq<Dated>)
    requires WellDated(xs) && |xs| > 0
    requires GroupsOf(groups, xs[..|xs| - 1])
    requires FindGroup(groups, DateKey(xs[|xs| - 1].day)) == -1
    ensures GroupsOf(AddBooking(groups, xs[|xs| - 1]), xs)
  {
    var x := xs[|xs| - 1];
    var key := DateKey(x.day);
    var g := DayGroup(key, x.day, [x.booking]);
    assert AddBooking(groups, x) == groups + [g];
    NewDaySound(groups, xs, g);
    NewDayDistinct(groups, g);
    KeysAppend(groups, g);
    CoversStep(groups, groups + [g], xs);
  }

  lemma NewDaySound(groups: seq<DayGroup>, xs: seq<Dated>, g: DayGroup)
    requires WellDated(xs) && |xs| > 0
    requires GroupsSound(groups, xs[..|xs| - 1]) && Covers(groups, xs[..|xs| - 1])
    requires g == DayGroup(DateKey(xs[|xs| - 1].day), xs[|xs| - 1].day, [xs[|xs| - 1].booking])
    requires g.key !in KeysOf(groups)
    ensures GroupsSound(groups + [g], xs)
  {
    UncoveredKeyEmpty(groups, xs[..|xs| - 1], g.key);
    BookingsWithKeyLast(xs, g.key);
    assert GroupSound(g, xs);
    var r := groups + [g];
    forall j | 0 <= j < |r|
      ensures GroupSound(r[j], xs)
    {
      if j < |groups| {
        assert r[j] == groups[j];
        assert groups[j].key in KeysOf(groups);
        BookingsWithKeyLast(xs, groups[j].key);
      }
    }
  }

  /** A key outside a covering grouping has no bookings. */
  lemma UncoveredKeyEmpty(groups: seq<DayGroup>, ys: seq<Dated>, key: string)
    requires WellDated(ys) && Covers(groups, ys) && key !in KeysOf(groups)
    ensures BookingsWithKey(ys, key) == []
  {
    forall k | 0 <= k < |ys| ensures DateKey(ys[k].day) != key {
      assert DateKey(ys[k].day) in KeysOf(groups);
    }
    NoneWithKey(ys, key);
  }

  lemma NewDayDistinct(groups: seq<DayGroup>, g: DayGroup)
    requires KeysDistinct(groups) && g.key !in KeysOf(groups)
    ensures KeysDistinct(groups + [g])
  {
    var r := groups + [g];
    forall i, j | 0 <= i < j < |r| ensures r[i].key != r[j].key {
      assert r[i] == groups[i];
      if j < |groups| {
        assert r[j] == groups[j];
      }
    }
  }

  /** Keeping every old key and adding the last booking's key keeps coverage. */
  lemma CoversStep(groups: seq<DayGroup>, r: seq<DayGroup>, xs: seq<Dated>)
    requires WellDated(xs) && |xs| > 0
    requires Covers(groups, xs[..|xs| - 1])
    requires KeysOf(groups) <= KeysOf(r) && DateKey(xs[|xs| - 1].day) in KeysOf(r)
    ensures Covers(r, xs)
  {
    var ys := xs[..|xs| - 1];
    forall k | 0 <= k < |xs| ensures DateKey(xs[k].day) in KeysOf(r) {
      if k < |ys| {
        assert xs[k] == ys[k];
      }
    }
  }

  lemma CollectKnownDay(groups: seq<DayGroup>, xs: seq<Dated>)
    requires WellDated(xs) && |xs| > 0
    requires GroupsOf(groups, xs[..|xs| - 1])
    requires FindGroup(groups, DateKey(xs[|xs| - 1].day)) != -1
    ensures GroupsOf(AddBooking(groups, xs[|xs| - 1]), xs)
  {
    var x := xs[|xs| - 1];
    var key := DateKey(x.day);
    var i := FindGroup(groups, key);
    var g := groups[i].(bookings := groups[i].bookings + [x.booking]);
    var r := groups[i := g];
    assert AddBooking(groups, x) == r;
    KnownDaySound(groups, xs, i);
    UpdateDistinct(groups, i, g);
    KeysUpdate(groups, i, g);
    assert key in KeysOf(groups);
    CoversStep(groups, r, xs);
  }

  lemma UpdateDistinct(groups: seq<DayGroup>, i: nat, g: DayGroup)
    requires KeysDistinct(groups) && i < |groups| && g.key == groups[i].key
    ensures KeysDistinct(groups[i := g])
  {
    var r := groups[i := g];
    forall a, b | 0 <= a < b < |r| ensures r[a].key != r[b].key {
      assert r[a].key == groups[a].key && r[b].key == groups[b].key;
    }
  }

  lemma KnownDaySound(groups: seq<DayGroup>, xs: seq<Dated>, i: nat)
    requires WellDated(xs) && |xs| > 0
    requires GroupsSound(groups, xs[..|xs| - 1]) && KeysDistinct(groups)
    requires i < |groups| && groups[i].key == DateKey(xs[|xs| - 1].day)
    ensures GroupsSound(groups[i := groups[i].(bookings := groups[i].bookings + [xs[|xs| - 1].booking])], xs)
  {
    var x := xs[|xs| - 1];
    var r := groups[i := groups[i].(bookings := groups[i].bookings + [x.booking])];
    forall j | 0 <= j < |r|
      ensures r[j].bookings == BookingsWithKey(xs, r[j].key)
    {
      BookingsWithKeyLast(xs, r[j].key);
      if j != i {
        assert r[j] == groups[j];
      }
    }
  }

  lemma {:induction false} CollectGroups(xs: seq<Dated>)
    requires WellDated(xs)
    ensures GroupsOf(Collect(xs), xs)
    decreases |xs|
  {
    if |xs| > 0 {
      CollectGroups(xs[..|xs| - 1]);
      CollectStep(Collect(xs[..|xs| - 1]), xs);
    }
  }

  /** Strictly ascending calendar days. */
  ghost predicate Ascending(gs: seq<DayGroup>) {
    forall i, j :: 0 <= i < j < |gs| ==> Before(gs[i].day, gs[j].day)
  }

  /** One step of the sort: insert before the first later day. */
  function InsertGroup(g: DayGroup, sorted: seq<DayGroup>): (r: seq<DayGroup>)
    ensures multiset(r) == multiset(sorted) + multiset{g}
    decreases |sorted|
  {
    if |sorted| == 0 || Before(g.day, sorted[0].day) then [g] + sorted
    else
      assert sorted == [sorted[0]] + sorted[1..];
      [sorted[0]] + InsertGroup(g, sorted[1..])
  }

  lemma {:induction false} InsertKeepsAscending(g: DayGroup, sorted: seq<DayGroup>)
    requires Ascending(sorted)
    requires forall i :: 0 <= i < |sorted| ==> sorted[i].day != g.day
    ensures Ascending(InsertGroup(g, sorted))
    decreases |sorted|
  {
    if |sorted| > 0 && !Before(g.day, sorted[0].day) {
      var rest := InsertGroup(g, sorted[1..]);
      InsertKeepsAscending(g, sorted[1..]);
      var r := [sorted[0]] + rest;
      forall j | 0 < j < |r| ensures Before(sorted[0].day, r[j].day) {
        assert r[j] in multiset(rest);
        assert r[j] in multiset(sorted[1..]) + multiset{g};
        if r[j] != g {
          assert r[j] in sorted[1..];
          var k :| 0 <= k < |sorted[1..]| && sorted[1..][k] == r[j];
          assert sorted[k + 1] == r[j];
        }
      }
    }
  }

  /** The `sort` by date. */
  function SortGroups(gs: seq<DayGroup>): (r: seq<DayGroup>)
    ensures multiset(r) == multiset(gs)
    decreases |gs|
  {
    if |gs| == 0 then []
    else
      assert gs == [gs[0]] + gs[1..];
      InsertGroup(gs[0], SortGroups(gs[1..]))
  }

  lemma {:induction false} SortAscending(gs: seq<DayGroup>)
    requires forall i, j :: 0 <= i < j < |gs| ==> gs[i].day != gs[j].day
    ensures Ascending(SortGroups(gs))
    decreases |gs|
  {
    if |gs| > 0 {
      var rest := SortGroups(gs[1..]);
      SortAscending(gs[1..]);
      forall i | 0 <= i < |rest| ensures rest[i].day != gs[0].day {
        assert rest[i] in multiset(gs[1..]);
        var k :| 0 <= k < |gs[1..]| && gs[1..][k] == rest[i];
        assert gs[k + 1] == rest[i];
      }
      InsertKeepsAscending(gs[0], rest);
    }
  }

  /** `groupBookingsByDate`: one group per day key, the groups in calendar
      order, each holding exactly the bookings of its day in input order,
      and every booking's day among the groups. */
  function GroupByDate(xs: seq<Dated>): (r: seq<DayGroup>)
    requires WellDated(xs)
    ensures Ascending(r)
    ensures GroupsOf(r, xs)
  {
    var groups := Collect(xs);
    CollectGroups(xs);
    SortedGrouping(groups, xs);
    SortGroups(groups)
  }

  lemma SortedGrouping(groups: seq<DayGroup>, xs: seq<Dated>)
    requires WellDated(xs) && GroupsOf(groups, xs)
    ensures Ascending(SortGroups(groups))
    ensures GroupsOf(SortGroups(groups), xs)
  {
    forall i, j | 0 <= i < j < |groups| ensures groups[i].day != groups[j].day {
      assert groups[i].key != groups[j].key;
    }
    SortAscending(groups);
    ReorderedGrouping(groups, SortGroups(groups), xs);
  }

  /** Any strictly ascending rearrangement of a grouping is a grouping. */
  lemma ReorderedGrouping(groups: seq<DayGroup>, r: seq<DayGroup>, xs: seq<Dated>)
    requires WellDated(xs) && GroupsOf(groups, xs)
    requires multiset(r) == multiset(groups) && Ascending(r)
    ensures GroupsOf(r, xs)
  {
    forall i | 0 <= i < |r|
      ensures r[i] in groups
    {
      assert r[i] in multiset(groups);
    }
    forall i, j | 0 <= i < j < |r| ensures r[i].key != r[j].key {
      assert Before(r[i].day, r[j].day);
      assert r[i] in groups && r[j] in groups;
    }
    forall k | 0 <= k < |xs| ensures DateKey(xs[k].day) in KeysOf(r) {
      assert DateKey(xs[k].day) in KeysOf(groups);
      var a :| 0 <= a < |groups| && groups[a].key == DateKey(xs[k].day);
      assert groups[a] in multiset(r);
      var b :| 0 <= b < |r| && r[b] == groups[a];
    }
  }

  /** Group keys strictly increase as strings, so string order of
      `YYYY-MM-DD` keys is the calendar order the sort used. */
  lemma GroupKeysAscending(xs: seq<Dated>)
    requires WellDated(xs)
    ensures var r := GroupByDate(xs);
            forall i, j :: 0 <= i < j < |r| ==> LexLess(r[i].key, r[j].key)
  {
    var r := GroupByDate(xs);
    forall i, j | 0 <= i < j < |r| ensures LexLess(r[i].key, r[j].key) {
      KeyOrder(r[i].day, r[j].day);
    }
  }

  /** Each booking sits in exactly one group: the one for its day. */
  lemma BookingInOneGroup(xs: seq<Dated>, k: nat)
    requires WellDated(xs) && k < |xs|
    ensures var r := GroupByDate(xs);
            exists i :: 0 <= i < |r| && r[i].key == DateKey(xs[k].day)
    ensures var r := GroupByDate(xs);
            forall i, j :: 0 <= i < |r| && 0 <= j < |r| && r[i].key == DateKey(xs[k].day) && r[j].key == DateKey(xs[k].day) ==> i == j
  {
    var r := GroupByDate(xs);
    assert DateKey(xs[k].day) in KeysOf(r);
  }

  // ------------------------------------------------------- status actions

  /** A button offered on a booking card. */
  datatype Action = ChangeStatus(next: BookingStatus) | Reschedule

  /** The buttons each status shows, in order. */
  function Actions(s: BookingStatus): (r: seq<Action>)
    ensures s == Pending ==> r == [ChangeStatus(Cancelled), Reschedule, ChangeStatus(Confirmed)]
    ensures s == Confirmed ==> r == [ChangeStatus(Completed), Reschedule, ChangeStatus(Cancelled)]
    ensures s == Completed || s == Cancelled ==> r == []
  {
    match s
    case Pending => [ChangeStatus(Cancelled), Reschedule, ChangeStatus(Confirmed)]
    case Confirmed => [ChangeStatus(Completed), Reschedule, ChangeStatus(Cancelled)]
    case Completed => []
    case Cancelled => []
  }

  /** Whether the card shows only the status badge. */
  predicate BadgeOnly(s: BookingStatus) {
    s == Completed || s == Cancelled
  }

  /** The owner may move `from` to `to` with one button. */
  predicate Offered(from: BookingStatus, to: BookingStatus) {
    ChangeStatus(to) in Actions(from)
  }

  /** How far along a booking is: every offered move goes forward. */
  function Stage(s: BookingStatus): (n: nat)
    ensures n <= 2
    ensures n == 2 <==> BadgeOnly(s)
  {
    match s
    case Pending => 0
    case Confirmed => 1
    case Completed => 2
    case Cancelled => 2
  }

  /** Terminal statuses offer no move and show the badge; the other two
      offer moves and no badge; every offered move advances the stage. */
  lemma StatusMachine(from: BookingStatus, to: BookingStatus)
    ensures BadgeOnly(from) <==> forall t :: !Offered(from, t)
    ensures Offered(from, to) ==> Stage(from) < Stage(to)
    ensures Offered(from, to) <==>
              (from == Pending && (to == Cancelled || to == Confirmed))
              || (from == Confirmed && (to == Completed || to == Cancelled))
  {
    if !BadgeOnly(from) {
      assert Offered(from, Cancelled);
    }
  }

  /** A run of offered moves. */
  predicate Run(steps: seq<BookingStatus>) {
    forall i :: 0 < i < |steps| ==> Offered(steps[i - 1], steps[i])
  }

  /** A booking changes status at most twice: there is no cycle. */
  lemma {:induction false} RunsAreShort(steps: seq<BookingStatus>)
    requires Run(steps) && |steps| > 0
    ensures |steps| + Stage(steps[0]) <= 3
    decreases |steps|
  {
    if |steps| > 1 {
      StatusMachine(steps[0], steps[1]);
      RunsAreShort(steps[1..]);
    }
  }

  // -------------------------------------------------------- getStatusBadge

  /** The label table inside `getStatusBadge`. */
  function OwnerStatusLabel(s: BookingStatus): (text: string)
    ensures text == ClientPages.StatusLabel(s)
  {
    match s
    case Pending => "Pendiente"
    case Confirmed => "Confirmada"
    case Completed => "Completada"
    case Cancelled => "Cancelada"
  }

  /** `getStatusBadge` on the raw status text: the pill class and the label;
      an unknown status shows as itself with the base class. */
  function StatusBadge(raw: string): (r: (string, string))
    ensures forall s :: raw == StatusText(s) ==>
              r == ("status-pill status-" + Lower(raw), ClientPages.StatusLabel(s))
    ensures ParseStatus(raw).None? ==> r == ("status-pill", raw)
  {
    StatusTextRoundTrip();
    match ParseStatus(raw)
    case None => ("status-pill", raw)
    case Some(s) => ("status-pill status-" + ClientPages.StatusModifier(s), OwnerStatusLabel(s))
  }

  // ------------------------------------------------------------- filters

  /** The query parameters: an empty filter is left out. */
  function FilterParams(date: string, status: string): (r: (Option<string>, Option<string>))
    ensures r.0.None? <==> date == "" 
    ensures r.1.None? <==> status == ""
    ensures r.0.Some? ==> r.0.value == date
    ensures r.1.Some? ==> r.1.value == status
  {
    (if date == "" then None else Some(date), if status == "" then None else Some(status))
  }
}

=== FILE: owner_profile.dfy ===
/** The owner's profile page (src/pages/owner/OwnerProfilePage.tsx): the
    avatar initials, form defaults filled from the loaded records, the
    profile payload normalisation, and the outcome of the three forms. */
module OwnerProfile {
  import opened Types
  import opened Failures
  import opened Text

  // ---------------------------------------------------------------- initials

  /** `initials`: first characters of the first two words of the trimmed
      name (`"A"` when absent or empty), upper-cased. */
  function Initials(fullName: Option<string>): (r: string)
    ensures 1 <= |r| <= 2 && NoLower(r)
  {
    InitialsOfName(Trim(if Truthy(fullName) then fullName.value else "A"))
  }

  /** The initials of an already trimmed name. */
  function InitialsOfName(name: string): (r: string)
    ensures 1 <= |r| <= 2 && NoLower(r)
    ensures |Words(name)| >= 2 ==>
              |r| == 2 && StartsWord(Words(name)[1]) && r[1] == UpperChar(Words(name)[1][0])
  {
    WordsAreWords(name);
    InitialsOfWords(Words(name))
  }

  /** The initials of the words of a name: the first characters of the
      first two, `"A"` when there is none, upper-cased. */
  function InitialsOfWords(parts: seq<string>): (r: string)
    requires forall i :: 0 <= i < |parts| ==> StartsWord(parts[i])
    ensures 1 <= |r| <= 2 && NoLower(r)
    ensures |r| == 2 <==> |parts| >= 2
    ensures |parts| > 0 ==> StartsWord(parts[0]) && r[0] == UpperChar(parts[0][0])
    ensures |parts| >= 2 ==> StartsWord(parts[1]) && r[1] == UpperChar(parts[1][0])
    ensures parts == [] ==> r == "A"
  {
    var a := if |parts| > 0 then (assert StartsWord(parts[0]); [parts[0][0]]) else "A";
    var b := if |parts| > 1 then (assert StartsWord(parts[1]); [parts[1][0]]) else "";
    assert Upper("A") == "A";
    Upper(a + b)
  }

  /** Two initials exactly when the name has at least two words. */
  lemma InitialsCount(name: string)
    ensures |InitialsOfName(name)| == 2 <==> |Words(name)| >= 2
  {
  }

  /** An absent, empty or blank name gives `"A"`. */
  lemma InitialsOfBlank(fullName: Option<string>)
    requires !Truthy(fullName) || IsBlank(fullName.value)
    ensures Initials(fullName) == "A"
  {
    if Truthy(fullName) {
      assert Trim(fullName.value) == "";
      InitialsOfEmpty();
    } else {
      TrimTrimmed("A");
      InitialsOfA();
    }
  }

  lemma InitialsOfEmpty()
    ensures InitialsOfName("") == "A"
  {
    assert Words("") == [];
    assert Upper("A") == "A";
  }

  lemma InitialsOfA()
    ensures InitialsOfName("A") == "A"
  {
    assert TrimStart("A") == "A";
    assert RunLength("A") == 1;
    assert Words("A"[1..]) == [];
    assert "A"[..1] == "A";
    assert Words("A") == ["A"];
    assert Upper("A") == "A";
  }

  /** Whitespace up to `off` and a non-space at `off`: `TrimStart` cuts there. */
  lemma {:induction false} TrimStartOf(s: string, off: nat)
    requires off < |s| && !IsSpace(s[off])
    requires forall i :: 0 <= i < off ==> IsSpace(s[i])
    ensures TrimStart(s) == s[off..]
    decreases off
  {
    if off > 0 {
      TrimStartOf(s[1..], off - 1);
      assert s[1..][off - 1..] == s[off..];
    }
  }

  /** The trimmed text starts at the first non-whitespace character. */
  lemma TrimFirst(s: string, j: nat)
    requires j < |s| && !IsSpace(s[j])
    requires forall i :: 0 <= i < j ==> IsSpace(s[i])
    ensures Trim(s) != "" && Trim(s)[0] == s[j]
  {
    TrimStartOf(s, j);
    var t := TrimStart(s);
    assert t[0] == s[j];
    var e := TrimEnd(t);
  }

  /** The first initial is the first non-whitespace character of the name,
      upper-cased. */
  lemma InitialsFirst(fullName: string, j: nat)
    requires j < |fullName| && !IsSpace(fullName[j])
    requires forall i :: 0 <= i < j ==> IsSpace(fullName[i])
    ensures Initials(Some(fullName))[0] == UpperChar(fullName[j])
  {
    assert Truthy(Some(fullName));
    var name := Trim(fullName);
    TrimFirst(fullName, j);
    FirstWordStart(name, 0);
    InitialsOfNameFirst(name);
  }

  /** The first initial of a name that has a word is its first word's first
      character, upper-cased. */
  lemma InitialsOfNameFirst(name: string)
    requires |Words(name)| > 0
    ensures InitialsOfName(name)[0] == UpperChar(Words(name)[0][0])
  {
    WordsAreWords(name);
    var parts := Words(name);
    var a := [parts[0][0]];
    var b := if |parts| > 1 then [parts[1][0]] else "";
    assert Upper(a + b)[0] == UpperChar((a + b)[0]);
  }

  /** A first and a last name separated by one whitespace character give
      both initials, upper-cased. */
  lemma {:induction false} InitialsOfTwoWords(first: string, sep: char, last: string)
    requires first != "" && last != "" && IsSpace(sep)
    requires forall i :: 0 <= i < |first| ==> !IsSpace(first[i])
    requires forall i :: 0 <= i < |last| ==> !IsSpace(last[i])
    ensures Initials(Some(first + [sep] + last)) == [UpperChar(first[0]), UpperChar(last[0])]
  {
    var full := first + [sep] + last;
    assert full[0] == first[0] && full[|full| - 1] == last[|last| - 1];
    InitialsOfTrimmed(full);
    WordsOfTwo(first, sep, last);
    InitialsOfPair(full, first, last);
  }

  /** A non-empty name without surrounding whitespace is used as it is. */
  lemma InitialsOfTrimmed(name: string)
    requires name != "" && Trimmed(name)
    ensures Initials(Some(name)) == InitialsOfName(name)
  {
    TrimTrimmed(name);
  }

  /** A name of exactly two words gives both their first characters. */
  lemma InitialsOfPair(name: string, first: string, last: string)
    requires Words(name) == [first, last]
    ensures first != "" && last != ""
    ensures InitialsOfName(name) == [UpperChar(first[0]), UpperChar(last[0])]
  {
    WordsAreWords(name);
    assert StartsWord(Words(name)[0]) && StartsWord(Words(name)[1]);
    InitialsOfWordsPair(first, last);
  }

  /** Two words give both their first characters. */
  lemma InitialsOfWordsPair(first: string, last: string)
    requires StartsWord(first) && StartsWord(last)
    ensures InitialsOfWords([first, last]) == [UpperChar(first[0]), UpperChar(last[0])]
  {
    var r := InitialsOfWords([first, last]);
    assert r == [r[0], r[1]];
  }

  // ------------------------------------------------------------- profile form

  datatype ProfileForm = ProfileForm(
    fullName: string, phone: string, gender: Gender,
    notificationChannel: NotificationChannel, marketingOptIn: bool,
    birthDate: Nullable<string>)

  /** The form before the profile has loaded. */
  const EmptyProfileForm := ProfileForm("", "", Male, WhatsApp, false, Undefined)

  /** The effect run when the profile loads: each field from the profile,
      defaults where it is missing. The form object is replaced as a whole,
      so no `birthDate` survives it. */
  function ProfileDefaults(f: ProfileForm, profile: Option<User>): (r: ProfileForm)
    ensures profile.None? ==> r == f
    ensures profile.Some? ==>
              && r.fullName == profile.value.fullName
              && (r.phone == "" <==> !Truthy(profile.value.phone))
              && (Truthy(profile.value.phone) ==> r.phone == profile.value.phone.value)
              && (r.gender == Male <==> profile.value.gender.None? || profile.value.gender == Some(Male))
              && (profile.value.gender.Some? ==> r.gender == profile.value.gender.value)
              && (profile.value.notificationChannel.Some? ==> r.notificationChannel == profile.value.notificationChannel.value)
              && (profile.value.notificationChannel.None? ==> r.notificationChannel == WhatsApp)
              && (r.marketingOptIn <==> profile.value.marketingOptIn == Some(true))
              && r.birthDate == Undefined
  {
    match profile
    case None => f
    case Some(u) =>
      ProfileForm(
        u.fullName,
        if Truthy(u.phone) then u.phone.value else "",
        u.gender.GetOr(Male),
        u.notificationChannel.GetOr(WhatsApp),
        u.marketingOptIn == Some(true),
        Undefined)
  }

  /** The update request: `phone` and `birthDate` may be sent as `null`. */
  datatype ProfileRequest = ProfileRequest(
    fullName: string, phone: Nullable<string>, gender: Gender,
    notificationChannel: NotificationChannel, marketingOptIn: bool,
    birthDate: Nullable<string>)

  /** `handleProfileSubmit`: a blank phone and an empty birth date become
      `null`; everything else is copied. */
  function ProfileSubmit(f: ProfileForm): (r: ProfileRequest)
    ensures r.phone == Null <==> IsBlank(f.phone)
    ensures r.phone != Null ==> r.phone == Val(f.phone)
    ensures r.birthDate == (if f.birthDate == Val("") then Null else f.birthDate)
    ensures r.fullName == f.fullName && r.gender == f.gender
    ensures r.notificationChannel == f.notificationChannel && r.marketingOptIn == f.marketingOptIn
  {
    var phone := if f.phone == "" || Trim(f.phone) == "" then Null else Val(f.phone);
    var birthDate := if f.birthDate == Val("") then Null else f.birthDate;
    ProfileRequest(f.fullName, phone, f.gender, f.notificationChannel, f.marketingOptIn, birthDate)
  }

  /** Loading a profile and saving it untouched sends back the stored values,
      with a missing or empty phone sent as `null` and missing choices as
      their defaults. */
  lemma SaveLoadedProfile(u: User)
    ensures var r := ProfileSubmit(ProfileDefaults(EmptyProfileForm, Some(u)));
            && r.fullName == u.fullName
            && (Truthy(u.phone) && !IsBlank(u.phone.value) ==> r.phone == Val(u.phone.value))
            && (!Truthy(u.phone) ==> r.phone == Null)
            && r.gender == u.gender.GetOr(Male)
            && r.notificationChannel == u.notificationChannel.GetOr(WhatsApp)
            && r.birthDate == Undefined
  {
  }

  // ------------------------------------------------------------ business form

  datatype BusinessForm = BusinessForm(
    name: string, address: string, description: string,
    openTime: string, closeTime: string, slotMinutes: int)

  const EmptyBusinessForm := BusinessForm("", "", "", "09:00", "18:00", 30)

  /** The effect run when the business record loads: falsy values (an empty
      text, zero minutes) are replaced by the defaults, the rest is kept. */
  function BusinessDefaults(f: BusinessForm, shop: Option<Barbershop>): (r: BusinessForm)
    ensures shop.None? ==> r == f
    ensures shop.Some? ==>
              && r.name == shop.value.name
              && r.address == shop.value.address.GetOr("")
              && r.description == shop.value.description.GetOr("")
              && r.openTime != "" && r.closeTime != "" && r.slotMinutes != 0
              && (shop.value.openTime != "" ==> r.openTime == shop.value.openTime)
              && (shop.value.closeTime != "" ==> r.closeTime == shop.value.closeTime)
              && (shop.value.slotMinutes != 0 ==> r.slotMinutes == shop.value.slotMinutes)
              && (shop.value.openTime == "" ==> r.openTime == "09:00")
              && (shop.value.closeTime == "" ==> r.closeTime == "18:00")
              && (shop.value.slotMinutes == 0 ==> r.slotMinutes == 30)
  {
    match shop
    case None => f
    case Some(b) =>
      BusinessForm(
        b.name,
        b.address.GetOr(""),
        b.description.GetOr(""),
        if b.openTime == "" then "09:00" else b.openTime,
        if b.closeTime == "" then "18:00" else b.closeTime,
        if b.slotMinutes == 0 then 30 else b.slotMinutes)
  }

  /** A loaded record replaces the whole form: whatever the user had typed
      before, the result depends on the record alone. */
  lemma BusinessDefaultsOverwrite(f: BusinessForm, g: BusinessForm, shop: Barbershop)
    ensures BusinessDefaults(f, Some(shop)) == BusinessDefaults(g, Some(shop))
  {
  }

  // --------------------------------------------------------- form outcomes

  datatype Tab = DataTab | BusinessTab | PrefsTab | SecurityTab

  datatype ProfileMutation = UpdateProfile | UpdateBusiness | ChangePassword

  datatype ProfilePage = ProfilePage(
    error: string, success: string, tab: Tab, actionsOpen: bool,
    currentPassword: string, newPassword: string)

  function SuccessText(m: ProfileMutation): string {
    match m
    case UpdateProfile => "Perfil actualizado correctamente"
    case UpdateBusiness => "Negocio actualizado correctamente"
    case ChangePassword => "Contraseña actualizada correctamente"
  }

  function FallbackText(m: ProfileMutation): string {
    match m
    case UpdateProfile => "Error al actualizar perfil"
    case UpdateBusiness => "Error al actualizar negocio"
    case ChangePassword => "Error al cambiar contraseña"
  }

  /** `onSuccess` of each form: its message, no error; only a password
      change clears the password fields. */
  function Succeeded(p: ProfilePage, m: ProfileMutation): (r: ProfilePage)
    ensures r.success == SuccessText(m) && r.success != "" && r.error == ""
    ensures m == ChangePassword ==> r.currentPassword == "" && r.newPassword == ""
    ensures m != ChangePassword ==> r.currentPassword == p.currentPassword && r.newPassword == p.newPassword
    ensures r.tab == p.tab && r.actionsOpen == p.actionsOpen
  {
    var shown := p.(success := SuccessText(m), error := "");
    if m == ChangePassword then shown.(currentPassword := "", newPassword := "") else shown
  }

  /** `onError` of each form: server message, then `Error` message, then the
      form's fallback; the success message is cleared. */
  function Failed(p: ProfilePage, m: ProfileMutation, e: Thrown): (r: ProfilePage)
    ensures r.success == ""
    ensures ServerMessage(e).Some? ==> r.error == ServerMessage(e).value
    ensures ServerMessage(e).None? ==> r.error == ErrorMessage(e, FallbackText(m))
    ensures r.currentPassword == p.currentPassword && r.newPassword == p.newPassword
    ensures r.tab == p.tab && r.actionsOpen == p.actionsOpen
  {
    p.(error := DisplayMessage(e, FallbackText(m)), success := "")
  }

  /** `goToTab`: switch tab and close the actions menu. */
  function GoToTab(p: ProfilePage, t: Tab): (r: ProfilePage)
    ensures r.tab == t && !r.actionsOpen
    ensures r.error == p.error && r.success == p.success
    ensures r.currentPassword == p.currentPassword && r.newPassword == p.newPassword
  {
    p.(tab := t, actionsOpen := false)
  }
}

=== FILE: routes.dfy ===
/** Route guarding (src/routes/ProtectedRoute.tsx, OwnerRoute.tsx) and the
    route table with its default redirect (src/routes/AppRoutes.tsx). Every
    redirect here replaces the history entry. */
module Routes {
  import opened Types
  import opened Failures
  import opened SessionStore

  const LoginPath := "/login"
  const OwnerPath := "/owner"
  const AppPath := "/app"
  const NewBookingPath := "/app/new-booking"

  datatype Decision = Spinner | Redirect(to: string) | Render

  /** The fields of the session that the guards read. */
  datatype AuthView = AuthView(user: Option<User>, isAuthenticated: bool, isLoading: bool)

  function ViewOf(s: Session): (v: AuthView)
    ensures v.isAuthenticated <==> Truthy(s.token) && s.user.Some?
    ensures v.user == s.user && v.isLoading == s.isLoading
  {
    AuthView(s.user, IsAuthenticated(s), s.isLoading)
  }

  /** Where the guard sends a signed-in user whose role is not allowed. */
  function GuardHome(r: Role): string {
    if r == Owner then OwnerPath else NewBookingPath
  }

  /** Where the default redirect and the auth pages send a user:
      `user?.role === "OWNER" ? "/owner" : "/app"`. */
  function Landing(u: Option<User>): string {
    if u.Some? && u.value.role == Owner then OwnerPath else AppPath
  }

  /** `ProtectedRoute`: loading first, then sign-in, then role. */
  function ProtectedRoute(v: AuthView, allowed: Option<seq<Role>>): (d: Decision)
    ensures v.isLoading ==> d == Spinner
    ensures !v.isLoading && (!v.isAuthenticated || v.user.None?) ==> d == Redirect(LoginPath)
    ensures (!v.isLoading && v.isAuthenticated && v.user.Some? && allowed.Some?
             && v.user.value.role !in allowed.value) ==> d == Redirect(GuardHome(v.user.value.role))
    ensures d == Render <==>
              && !v.isLoading && v.isAuthenticated && v.user.Some?
              && (allowed.None? || v.user.value.role in allowed.value)
  {
    if v.isLoading then Spinner
    else if !v.isAuthenticated || v.user.None? then Redirect(LoginPath)
    else if allowed.Some? && v.user.value.role !in allowed.value then Redirect(GuardHome(v.user.value.role))
    else Render
  }

  /** `OwnerRoute`: reads only the user, neither the token nor `isLoading`. */
  function OwnerRoute(user: Option<User>): (d: Decision)
    ensures user.None? ==> d == Redirect(LoginPath)
    ensures user.Some? && user.value.role != Owner ==> d == Redirect(NewBookingPath)
    ensures d == Render <==> user.Some? && user.value.role == Owner
  {
    if user.None? then Redirect(LoginPath)
    else if user.value.role != Owner then Redirect(NewBookingPath)
    else Render
  }

  /** `HomeRedirect`: a signed-in user goes to the role's landing page, anyone
      else to the login page; `isLoading` is not consulted. */
  function HomeRedirect(v: AuthView): (d: Decision)
    ensures d.Redirect?
    ensures v.isAuthenticated && v.user.Some? ==> d.to == Landing(v.user)
    ensures !(v.isAuthenticated && v.user.Some?) ==> d.to == LoginPath
  {
    if v.isAuthenticated && v.user.Some? then Redirect(Landing(v.user)) else Redirect(LoginPath)
  }

  datatype Page =
    | LoginPage | RegisterPage | ResetPasswordPage | ResetPasswordConfirmPage
    | VerifyPhonePage | VerifyEmailPage
    | AppIndex | NewBookingPage | MyBookingsPage | ClientProfilePage
    | OwnerHomePage | OwnerBookingsPage | OwnerDisabledSlotsPage | OwnerSchedulePage | OwnerProfilePage
    | RootPage | NotFoundPage

  /** The route table's paths. */
  function Match(path: string): Page {
    if path == "/login" then LoginPage
    else if path == "/register" then RegisterPage
    else if path == "/reset-password" then ResetPasswordPage
    else if path == "/reset-password/confirm" then ResetPasswordConfirmPage
    else if path == "/verify-phone" then VerifyPhonePage
    else if path == "/verify-email" then VerifyEmailPage
    else if path == "/app" then AppIndex
    else if path == "/app/new-booking" then NewBookingPage
    else if path == "/app/my-bookings" then MyBookingsPage
    else if path == "/app/profile" then ClientProfilePage
    else if path == "/owner" then OwnerHomePage
    else if path == "/owner/bookings" then OwnerBookingsPage
    else if path == "/owner/disabled-slots" then OwnerDisabledSlotsPage
    else if path == "/owner/schedule" then OwnerSchedulePage
    else if path == "/owner/profile" then OwnerProfilePage
    else if path == "/" then RootPage
    else NotFoundPage
  }

  /** How a page is guarded. */
  datatype Access = Public | SignedIn | RolesOnly(roles: seq<Role>) | ViaHome

  function AccessOf(p: Page): (a: Access)
    ensures a == Public <==> p in {LoginPage, RegisterPage, ResetPasswordPage, ResetPasswordConfirmPage}
    ensures a == SignedIn <==> p in {VerifyPhonePage, VerifyEmailPage}
    ensures a == RolesOnly([Client]) <==> p in {AppIndex, NewBookingPage, MyBookingsPage, ClientProfilePage}
    ensures a == RolesOnly([Owner]) <==>
              p in {OwnerHomePage, OwnerBookingsPage, OwnerDisabledSlotsPage, OwnerSchedulePage, OwnerProfilePage}
    ensures a == ViaHome <==> p in {RootPage, NotFoundPage}
  {
    match p
    case LoginPage | RegisterPage | ResetPasswordPage | ResetPasswordConfirmPage => Public
    case VerifyPhonePage | VerifyEmailPage => SignedIn
    case AppIndex | NewBookingPage | MyBookingsPage | ClientProfilePage => RolesOnly([Client])
    case OwnerHomePage | OwnerBookingsPage | OwnerDisabledSlotsPage | OwnerSchedulePage | OwnerProfilePage =>
      RolesOnly([Owner])
    case RootPage | NotFoundPage => ViaHome
  }

  /** What visiting a path shows; the `/app` index redirects to its
      `new-booking` child once the guard lets it render. */
  function Visit(path: string, v: AuthView): Decision {
    var page := Match(path);
    match AccessOf(page)
    case Public => Render
    case SignedIn => ProtectedRoute(v, None)
    case RolesOnly(rs) =>
      var d := ProtectedRoute(v, Some(rs));
      if d == Render && page == AppIndex then Redirect(NewBookingPath) else d
    case ViaHome => HomeRedirect(v)
  }

  /** Follows redirects for at most `hops` steps; returns the final decision
      and the path it was taken on. */
  function Follow(path: string, v: AuthView, hops: nat): (string, Decision)
    decreases hops
  {
    var d := Visit(path, v);
    if d.Redirect? && hops > 0 then Follow(d.to, v, hops - 1) else (path, d)
  }

  /** No redirect loop: for a signed-in user the guard's mismatch target is a
      page that role is allowed to enter. */
  lemma MismatchTargetRenders(v: AuthView)
    requires !v.isLoading && v.isAuthenticated && v.user.Some?
    ensures Visit(GuardHome(v.user.value.role), v) == Render
  {
  }

  /** The default redirect's `/app` and the guard's `/app/new-booking` lead to
      the same page after the index redirect. */
  lemma LandingConverges(v: AuthView)
    requires !v.isLoading && v.isAuthenticated && v.user.Some?
    ensures Follow(Landing(v.user), v, 1) == (GuardHome(v.user.value.role), Render)
  {
    if v.user.value.role == Client {
      assert Visit(AppPath, v) == Redirect(NewBookingPath);
    }
  }

  /** Every path settles within two redirects, on a spinner or a page; once
      loading is over it always settles on a page. */
  lemma Settles(path: string, v: AuthView)
    ensures !Follow(path, v, 2).1.Redirect?
    ensures !v.isLoading ==> Follow(path, v, 2).1 == Render
  {
    var d := Visit(path, v);
    if d.Redirect? {
      RedirectTargets(path, v);
      TargetSettles(d.to, v);
    }
  }

  /** Every redirect goes to one of four paths. */
  lemma RedirectTargets(path: string, v: AuthView)
    ensures Visit(path, v).Redirect? ==> Visit(path, v).to in {LoginPath, OwnerPath, AppPath, NewBookingPath}
  {
  }

  /** From each redirect target, one more hop settles. */
  lemma TargetSettles(to: string, v: AuthView)
    requires to in {LoginPath, OwnerPath, AppPath, NewBookingPath}
    ensures !Follow(to, v, 1).1.Redirect?
    ensures !v.isLoading ==> Follow(to, v, 1).1 == Render
  {
  }

  /** `OwnerRoute` and `ProtectedRoute` with `["OWNER"]` disagree, once loading
      is over, exactly for a user that is not signed in (no token). */
  lemma OwnerRouteVersusGuard(v: AuthView)
    requires !v.isLoading
    ensures OwnerRoute(v.user) != ProtectedRoute(v, Some([Owner])) <==> v.user.Some? && !v.isAuthenticated
  {
  }

  /** An empty role list is still a list: it turns away every signed-in user. */
  lemma EmptyRoleListRedirects(v: AuthView)
    requires !v.isLoading && v.isAuthenticated && v.user.Some?
    ensures ProtectedRoute(v, Some([])) == Redirect(GuardHome(v.user.value.role))
  {
  }

  /** A fresh start with empty storage, once mounted, sends a protected page
      to the login page. */
  lemma FreshStartGoesToLogin(path: string)
    requires AccessOf(Match(path)) != Public
    ensures Follow(path, ViewOf(Mount(Hydrate(map[]))), 0).1 == Redirect(LoginPath)
  {
  }

  /** An owner who has just logged in enters the owner area and is sent from
      the client area to `/owner`. */
  lemma OwnerLoginScenario(storage: Storage, u: User, password: string, t: string)
    requires u.role == Owner && t != ""
    ensures var st := Login(Mount(Hydrate(storage)), u.email, password, Ok(Some(AuthReply(Some(u), Some(t)))));
            && st.thrown.None?
            && Visit(OwnerPath, ViewOf(st.session)) == Render
            && Visit(NewBookingPath, ViewOf(st.session)) == Redirect(OwnerPath)
  {
    var reply := AuthReply(Some(u), Some(t));
    assert Complete(Some(reply));
    var st := Login(Mount(Hydrate(storage)), u.email, password, Ok(Some(reply)));
    OwnerVisits(ViewOf(st.session));
  }

  /** A signed-in owner enters `/owner` and is sent there from the client area. */
  lemma OwnerVisits(v: AuthView)
    requires !v.isLoading && v.isAuthenticated && v.user.Some? && v.user.value.role == Owner
    ensures Visit(OwnerPath, v) == Render
    ensures Visit(NewBookingPath, v) == Redirect(OwnerPath)
  {
  }
}

=== FILE: session.dfy ===
/** The session store of src/context/AuthContext.tsx: the signed-in user and
    bearer token held in memory and mirrored into two slots of the browser's
    durable key/value storage. Network replies are parameters. */
module SessionStore {
  import opened Types
  import opened Failures
  import Codec

  const UserKey := "user"
  const TokenKey := "token"

  const InvalidLoginMessage := "Invalid login response: missing user or token"
  const NoPhoneMessage := "No se encontró un número de teléfono asociado a tu cuenta"
  const NoEmailMessage := "No se encontró un correo electrónico asociado a tu cuenta"

  /** What `JSON.stringify(undefined)` turns into once written to storage. */
  const UndefinedText := "undefined"

  type Storage = map<string, string>

  datatype Session = Session(user: Option<User>, token: Option<string>, isLoading: bool, storage: Storage)

  /** The requests the store sends to the backend. */
  datatype SessionCall =
    | LoginCall(credential: string, password: string)
    | ConfirmPhoneCall(phone: string, code: string)
    | ConfirmEmailCall(code: string)

  /** The reply of the login endpoint; the body or its parts may be missing. */
  datatype AuthReply = AuthReply(user: Option<User>, token: Option<string>)

  /** The reply of the e-mail confirmation endpoint. */
  datatype EmailReply = EmailReply(user: Option<User>, message: string)

  /** One store operation: the new state, what it threw, and the request it sent. */
  datatype Step = Step(session: Session, thrown: Option<Thrown>, call: Option<SessionCall>)

  function Lookup(m: Storage, k: string): Option<string> {
    if k in m then Some(m[k]) else None
  }

  /** `safeJSONParse`: no value or an empty one gives nothing; otherwise the
      decoded user, or nothing when the text does not decode. It never fails. */
  function SafeJsonParse(v: Option<string>): (r: Option<User>)
    ensures !Truthy(v) ==> r.None?
    ensures r.Some? ==> Codec.Decode(v.value) == r
  {
    if !Truthy(v) then None else Codec.Decode(v.value)
  }

  lemma SafeParseEncoded(u: User)
    ensures SafeJsonParse(Some(Codec.Encode(u))) == Some(u)
  {
    Codec.DecodeEncode(u);
  }

  /** `isAuthenticated`: a non-empty token and a user. */
  predicate IsAuthenticated(s: Session) {
    Truthy(s.token) && s.user.Some?
  }

  /** Memory agrees with what a fresh read of storage would produce. */
  predicate Mirrored(s: Session) {
    && SafeJsonParse(Lookup(s.storage, UserKey)) == s.user
    && Lookup(s.storage, TokenKey) == s.token
  }

  /** Storage keys other than the two session slots are untouched. */
  ghost predicate OthersKept(before: Storage, after: Storage) {
    forall k :: k != UserKey && k != TokenKey ==> Lookup(after, k) == Lookup(before, k)
  }

  /** The initial state of the provider: the token read as raw text, the
      user through `safeJSONParse`, and `isLoading` set. */
  function Hydrate(storage: Storage): (s: Session)
    ensures s.isLoading && s.storage == storage
    ensures s.token == Lookup(storage, TokenKey)
    ensures Mirrored(s)
  {
    Session(SafeJsonParse(Lookup(storage, UserKey)), Lookup(storage, TokenKey), true, storage)
  }

  /** The mount effect: loading ends, nothing else changes and nothing is fetched. */
  function Mount(s: Session): (r: Session)
    ensures !r.isLoading
    ensures r.user == s.user && r.token == s.token && r.storage == s.storage
  {
    s.(isLoading := false)
  }

  function StoreUser(m: Storage, u: User): (r: Storage)
    ensures Lookup(r, UserKey) == Some(Codec.Encode(u))
    ensures Lookup(r, TokenKey) == Lookup(m, TokenKey)
    ensures OthersKept(m, r)
  {
    m[UserKey := Codec.Encode(u)]
  }

  /** `setAuth`: commits user and token to memory and to both slots; the
      token is stored as it is, not encoded. */
  function SetAuth(s: Session, u: User, t: string): (r: Session)
    ensures r.user == Some(u) && r.token == Some(t) && r.isLoading == s.isLoading
    ensures Lookup(r.storage, UserKey) == Some(Codec.Encode(u))
    ensures Lookup(r.storage, TokenKey) == Some(t)
    ensures OthersKept(s.storage, r.storage)
    ensures Mirrored(r)
    ensures IsAuthenticated(r) <==> t != ""
  {
    SafeParseEncoded(u);
    s.(user := Some(u), token := Some(t), storage := StoreUser(s.storage, u)[TokenKey := t])
  }

  /** A login reply that carries a body, a user and a non-empty token. */
  predicate Complete(a: Option<AuthReply>) {
    a.Some? && a.value.user.Some? && Truthy(a.value.token)
  }

  /** `login`: always sends the credentials; commits exactly like `setAuth`
      when the reply is complete, and otherwise throws with the state untouched. */
  function Login(s: Session, credential: string, password: string, reply: Outcome<Option<AuthReply>>): (st: Step)
    ensures st.call == Some(LoginCall(credential, password))
    ensures st.thrown.Some? ==> st.session == s
    ensures reply.Fail? ==> st.thrown == Some(reply.error)
    ensures reply.Ok? && !Complete(reply.value) ==> st.thrown == Some(Raise(InvalidLoginMessage))
    ensures st.thrown.None? <==> reply.Ok? && Complete(reply.value)
    ensures st.thrown.None? ==>
              st.session == SetAuth(s, reply.value.value.user.value, reply.value.value.token.value)
  {
    var call := Some(LoginCall(credential, password));
    match reply
    case Fail(e) => Step(s, Some(e), call)
    case Ok(body) =>
      if !Complete(body) then Step(s, Some(Raise(InvalidLoginMessage)), call)
      else Step(SetAuth(s, body.value.user.value, body.value.token.value), None, call)
  }

  /** `logout`: both fields cleared and both slots removed. */
  function Logout(s: Session): (r: Session)
    ensures r.user.None? && r.token.None? && r.isLoading == s.isLoading
    ensures UserKey !in r.storage && TokenKey !in r.storage
    ensures OthersKept(s.storage, r.storage)
    ensures Mirrored(r) && !IsAuthenticated(r)
  {
    s.(user := None, token := None, storage := s.storage - {UserKey, TokenKey})
  }

  /** `updateUser`: replaces the user and its slot; the token stays. */
  function UpdateUser(s: Session, u: User): (r: Session)
    ensures r.user == Some(u) && r.token == s.token && r.isLoading == s.isLoading
    ensures Lookup(r.storage, UserKey) == Some(Codec.Encode(u))
    ensures Lookup(r.storage, TokenKey) == Lookup(s.storage, TokenKey)
    ensures OthersKept(s.storage, r.storage)
    ensures Mirrored(s) ==> Mirrored(r)
  {
    SafeParseEncoded(u);
    s.(user := Some(u), storage := StoreUser(s.storage, u))
  }

  predicate HasPhone(u: Option<User>) {
    u.Some? && Truthy(u.value.phone)
  }

  predicate HasEmail(u: Option<User>) {
    u.Some? && u.value.email != ""
  }

  /** `verifyPhone`: without a phone it throws before any request; after a
      confirmed code the user differs from the old one only in `phoneVerified`. */
  function VerifyPhone(s: Session, code: string, reply: Outcome<string>): (st: Step)
    ensures !HasPhone(s.user) ==> st == Step(s, Some(Raise(NoPhoneMessage)), None)
    ensures HasPhone(s.user) ==> st.call == Some(ConfirmPhoneCall(s.user.value.phone.value, code))
    ensures HasPhone(s.user) && reply.Fail? ==> st.session == s && st.thrown == Some(reply.error)
    ensures st.thrown.None? <==> HasPhone(s.user) && reply.Ok?
    ensures st.thrown.None? ==>
              && st.session.user == Some(s.user.value.(phoneVerified := true))
              && st.session.token == s.token && st.session.isLoading == s.isLoading
              && Lookup(st.session.storage, TokenKey) == Lookup(s.storage, TokenKey)
              && OthersKept(s.storage, st.session.storage)
    ensures Mirrored(s) ==> Mirrored(st.session)
  {
    if !HasPhone(s.user) then Step(s, Some(Raise(NoPhoneMessage)), None)
    else
      var call := Some(ConfirmPhoneCall(s.user.value.phone.value, code));
      match reply
      case Fail(e) => Step(s, Some(e), call)
      case Ok(_) => Step(UpdateUser(s, s.user.value.(phoneVerified := true)), None, call)
  }

  /** Writes the reply's user, or the text `undefined` when the reply has none. */
  function StoreReplyUser(m: Storage, u: Option<User>): (r: Storage)
    ensures SafeJsonParse(Lookup(r, UserKey)) == u
    ensures Lookup(r, TokenKey) == Lookup(m, TokenKey)
    ensures OthersKept(m, r)
  {
    match u
    case Some(v) => SafeParseEncoded(v); StoreUser(m, v)
    case None => Codec.UnterminatedRejected(UndefinedText); m[UserKey := UndefinedText]
  }

  /** `verifyEmail`: without an e-mail it throws before any request; after a
      confirmed code the user becomes exactly the one the server returned. */
  function VerifyEmail(s: Session, code: string, reply: Outcome<EmailReply>): (st: Step)
    ensures !HasEmail(s.user) ==> st == Step(s, Some(Raise(NoEmailMessage)), None)
    ensures HasEmail(s.user) ==> st.call == Some(ConfirmEmailCall(code))
    ensures HasEmail(s.user) && reply.Fail? ==> st.session == s && st.thrown == Some(reply.error)
    ensures st.thrown.None? <==> HasEmail(s.user) && reply.Ok?
    ensures st.thrown.None? ==>
              && st.session.user == reply.value.user
              && st.session.token == s.token && st.session.isLoading == s.isLoading
              && Lookup(st.session.storage, TokenKey) == Lookup(s.storage, TokenKey)
              && OthersKept(s.storage, st.session.storage)
    ensures Mirrored(s) ==> Mirrored(st.session)
  {
    if !HasEmail(s.user) then Step(s, Some(Raise(NoEmailMessage)), None)
    else
      var call := Some(ConfirmEmailCall(code));
      match reply
      case Fail(e) => Step(s, Some(e), call)
      case Ok(body) =>
        Step(s.(user := body.user, storage := StoreReplyUser(s.storage, body.user)), None, call)
  }

  /** The operations, as events of a state-transition system. */
  datatype Event =
    | MountEvent
    | SetAuthEvent(u: User, t: string)
    | LoginEvent(credential: string, password: string, loginReply: Outcome<Option<AuthReply>>)
    | LogoutEvent
    | UpdateUserEvent(updated: User)
    | VerifyPhoneEvent(phoneCode: string, phoneReply: Outcome<string>)
    | VerifyEmailEvent(emailCode: string, emailReply: Outcome<EmailReply>)

  function Apply(s: Session, e: Event): Session {
    match e
    case MountEvent => Mount(s)
    case SetAuthEvent(u, t) => SetAuth(s, u, t)
    case LoginEvent(c, p, r) => Login(s, c, p, r).session
    case LogoutEvent => Logout(s)
    case UpdateUserEvent(u) => UpdateUser(s, u)
    case VerifyPhoneEvent(c, r) => VerifyPhone(s, c, r).session
    case VerifyEmailEvent(c, r) => VerifyEmail(s, c, r).session
  }

  function Run(s: Session, events: seq<Event>): Session
    decreases |events|
  {
    if |events| == 0 then s else Run(Apply(s, events[0]), events[1..])
  }

  /** Whatever happens after start-up, memory and storage stay in agreement. */
  lemma {:induction false} RunKeepsMirrored(storage: Storage, events: seq<Event>)
    ensures Mirrored(Run(Hydrate(storage), events))
  {
    RunFromMirrored(Hydrate(storage), events);
  }

  lemma {:induction false} RunFromMirrored(s: Session, events: seq<Event>)
    requires Mirrored(s)
    ensures Mirrored(Run(s, events))
    decreases |events|
  {
    if |events| > 0 {
      var s' := Apply(s, events[0]);
      assert Mirrored(s');
      RunFromMirrored(s', events[1..]);
    }
  }

  /** Once mounted, no operation sets `isLoading` again. */
  lemma {:induction false} LoadingEndsOnce(s: Session, events: seq<Event>)
    requires !s.isLoading
    ensures !Run(s, events).isLoading
    decreases |events|
  {
    if |events| > 0 {
      LoadingEndsOnce(Apply(s, events[0]), events[1..]);
    }
  }

  /** A reload reproduces the session: reading storage back gives the same
      user and token as memory held. */
  lemma ReloadRestores(s: Session)
    requires Mirrored(s)
    ensures Hydrate(s.storage) == s.(isLoading := true)
  {
  }

  /** After `setAuth`, a reload brings back exactly that user and token. */
  lemma ReloadAfterSetAuth(s: Session, u: User, t: string)
    ensures var h := Hydrate(SetAuth(s, u, t).storage); h.user == Some(u) && h.token == Some(t)
  {
  }

  /** A stored token whose user slot is missing or does not parse gives a
      session that holds the token and is not signed in. */
  lemma TokenWithoutUser(storage: Storage)
    requires Truthy(Lookup(storage, TokenKey))
    requires SafeJsonParse(Lookup(storage, UserKey)).None?
    ensures var s := Hydrate(storage); s.token.Some? && s.user.None? && !IsAuthenticated(s)
  {
  }

  /** The `"undefined"` text written by `setAuth` without a user is such a
      slot: with a token beside it the reloaded session is not signed in. */
  lemma TokenWithUndefinedUser(storage: Storage)
    requires Truthy(Lookup(storage, TokenKey))
    requires Lookup(storage, UserKey) == Some(UndefinedText)
    ensures var s := Hydrate(storage); s.token.Some? && s.user.None? && !IsAuthenticated(s)
  {
    Codec.UnterminatedRejected(UndefinedText);
    TokenWithoutUser(storage);
  }

  /** Logging out twice is the same as logging out once. */
  lemma LogoutIdempotent(s: Session)
    ensures Logout(Logout(s)) == Logout(s)
  {
  }
}

=== FILE: text.dfy ===
/** String operations of the JavaScript runtime that the pages rely on:
    case mapping, `trim`, `split`, `join`, `indexOf` and `<` on strings. */
module Text {

  /** The characters matched by `\s` and removed by `trim`: the ECMAScript
      WhiteSpace and LineTerminator sets. */
  predicate IsSpace(c: char) {
    || c == ' ' || c == '\t' || c == '\n' || c == '\r'
    || c == '\U{000B}' || c == '\U{000C}' || c == '\U{00A0}' || c == '\U{1680}'
    || ('\U{2000}' <= c <= '\U{200A}')
    || c == '\U{2028}' || c == '\U{2029}' || c == '\U{202F}' || c == '\U{205F}'
    || c == '\U{3000}' || c == '\U{FEFF}'
  }

  predicate IsLower(c: char) { 'a' <= c <= 'z' }

  predicate IsUpper(c: char) { 'A' <= c <= 'Z' }

  function UpperChar(c: char): (r: char)
    ensures !IsLower(r)
    ensures IsLower(c) ==> IsUpper(r) && r as int == c as int - 32
    ensures !IsLower(c) ==> r == c
  {
    if IsLower(c) then (c as int - 32) as char else c
  }

  function LowerChar(c: char): (r: char)
    ensures !IsUpper(r)
    ensures IsUpper(c) ==> IsLower(r) && r as int == c as int + 32
    ensures !IsUpper(c) ==> r == c
  {
    if IsUpper(c) then (c as int + 32) as char else c
  }

  /** `toUpperCase`, restricted to the ASCII letters. */
  function Upper(s: string): (r: string)
    ensures |r| == |s|
    ensures forall i :: 0 <= i < |s| ==> r[i] == UpperChar(s[i])
  {
    seq(|s|, i requires 0 <= i < |s| => UpperChar(s[i]))
  }

  /** `toLowerCase`, restricted to the ASCII letters. */
  function Lower(s: string): (r: string)
    ensures |r| == |s|
    ensures forall i :: 0 <= i < |s| ==> r[i] == LowerChar(s[i])
  {
    seq(|s|, i requires 0 <= i < |s| => LowerChar(s[i]))
  }

  predicate NoLower(s: string) {
    forall i :: 0 <= i < |s| ==> !IsLower(s[i])
  }

  predicate NoUpper(s: string) {
    forall i :: 0 <= i < |s| ==> !IsUpper(s[i])
  }

  predicate IsBlank(s: string) {
    forall i :: 0 <= i < |s| ==> IsSpace(s[i])
  }

  /** Drops leading whitespace. */
  function TrimStart(s: string): (r: string)
    ensures |r| <= |s| && r == s[|s| - |r|..]
    ensures r == "" || !IsSpace(r[0])
    ensures forall i :: 0 <= i < |s| - |r| ==> IsSpace(s[i])
    decreases |s|
  {
    if |s| > 0 && IsSpace(s[0]) then TrimStart(s[1..]) else s
  }

  /** Drops trailing whitespace. */
  function TrimEnd(s: string): (r: string)
    ensures |r| <= |s| && r == s[..|r|]
    ensures r == "" || !IsSpace(r[|r| - 1])
    ensures forall i :: |r| <= i < |s| ==> IsSpace(s[i])
    decreases |s|
  {
    if |s| > 0 && IsSpace(s[|s| - 1]) then TrimEnd(s[..|s| - 1]) else s
  }

  /** `trim`: the middle of `s` between its leading and trailing whitespace. */
  function Trim(s: string): (r: string)
    ensures |r| <= |s|
    ensures Trimmed(r)
    ensures r == "" <==> IsBlank(s)
  {
    TrimStartBlank(s);
    var t := TrimStart(s);
    var r := TrimEnd(t);
    assert r != "" ==> !IsSpace(r[0]);
    r
  }

  /** A text without surrounding whitespace is its own trim. */
  lemma TrimTrimmed(s: string)
    requires Trimmed(s)
    ensures Trim(s) == s
  {
  }

  /** `trim` keeps exactly the middle between a blank prefix and a blank
      suffix: whatever the split, the kept part is the same. */
  lemma {:induction false} TrimMiddle(s: string, i: nat, j: nat)
    requires i <= j <= |s|
    requires IsBlank(s[..i]) && IsBlank(s[j..]) && Trimmed(s[i..j])
    ensures Trim(s) == s[i..j]
  {
    if i == j {
      BlankJoin(s, i);
      TrimBlank(s);
    } else {
      assert s[i..j][0] == s[i] && s[i..j][j - i - 1] == s[j - 1];
      TrimAround(s, i, j);
    }
  }

  /** `TrimMiddle` for a non-empty middle, given by its end characters. */
  lemma TrimAround(s: string, i: nat, j: nat)
    requires i < j <= |s|
    requires IsBlank(s[..i]) && IsBlank(s[j..])
    requires !IsSpace(s[i]) && !IsSpace(s[j - 1])
    ensures Trim(s) == s[i..j]
  {
    TrimStartAt(s, i);
    TrimEndOfSuffix(s, i, j);
    TrimOfParts(s);
  }

  /** A blank text trims to nothing. */
  lemma TrimBlank(s: string)
    requires IsBlank(s)
    ensures Trim(s) == ""
  {
  }

  /** `Trim` is `TrimEnd` after `TrimStart`. */
  lemma TrimOfParts(s: string)
    ensures Trim(s) == TrimEnd(TrimStart(s))
  {
  }

  /** `TrimEnd` of the suffix from `i` stops at `j`. */
  lemma TrimEndOfSuffix(s: string, i: nat, j: nat)
    requires i < j <= |s|
    requires IsBlank(s[j..]) && !IsSpace(s[j - 1])
    ensures TrimEnd(s[i..]) == s[i..j]
  {
    assert s[i..][..j - i] == s[i..j];
    assert s[i..][j - i..] == s[j..];
    TrimEndAt(s[i..], j - i);
  }

  /** A text made of a blank prefix and a blank rest is blank. */
  lemma {:induction false} BlankJoin(s: string, i: nat)
    requires i <= |s| && IsBlank(s[..i]) && IsBlank(s[i..])
    ensures IsBlank(s)
  {
    forall k | 0 <= k < |s|
      ensures IsSpace(s[k])
    {
      if k < i { assert s[k] == s[..i][k]; } else { assert s[k] == s[i..][k - i]; }
    }
  }

  /** `TrimStart` stops at the first non-whitespace character. */
  lemma {:induction false} TrimStartAt(s: string, i: nat)
    requires i < |s| && IsBlank(s[..i]) && !IsSpace(s[i])
    ensures TrimStart(s) == s[i..]
    decreases i
  {
    if i > 0 {
      assert IsSpace(s[..i][0]);
      assert s[1..][..i - 1] == s[..i][1..];
      TrimStartAt(s[1..], i - 1);
      assert s[1..][i - 1..] == s[i..];
    }
  }

  /** `TrimEnd` stops at the last non-whitespace character. */
  lemma {:induction false} TrimEndAt(s: string, j: nat)
    requires 0 < j <= |s| && IsBlank(s[j..]) && !IsSpace(s[j - 1])
    ensures TrimEnd(s) == s[..j]
    decreases |s| - j
  {
    if j < |s| {
      var t := s[..|s| - 1];
      assert IsSpace(s[j..][|s| - 1 - j]);
      assert t[j..] == s[j..][..|s| - 1 - j];
      TrimEndAt(t, j);
      assert t[..j] == s[..j];
    }
  }

  /** No surrounding whitespace. */
  predicate Trimmed(s: string) {
    s == "" || (!IsSpace(s[0]) && !IsSpace(s[|s| - 1]))
  }

  /** Upper-casing keeps a text trimmed. */
  lemma UpperTrimmed(s: string)
    requires Trimmed(s)
    ensures Trimmed(Upper(s)) && NoLower(Upper(s))
  {
    if s != "" {
      assert Upper(s)[0] == UpperChar(s[0]);
      assert Upper(s)[|s| - 1] == UpperChar(s[|s| - 1]);
    }
  }

  /** Upper-casing leaves a text without lower-case letters alone. */
  lemma UpperNoLower(s: string)
    requires NoLower(s)
    ensures Upper(s) == s
  {
  }

  /** Only a blank text loses everything to `TrimStart`. */
  lemma TrimStartBlank(s: string)
    ensures TrimStart(s) == "" <==> IsBlank(s)
  {
  }

  /** `indexOf(c)`: the first position of `c`, or -1. */
  function IndexOf(s: string, c: char): (i: int)
    ensures i == -1 <==> c !in s
    ensures i != -1 ==> 0 <= i < |s| && s[i] == c && c !in s[..i]
    decreases |s|
  {
    if |s| == 0 then -1
    else if s[0] == c then 0
    else
      var j := IndexOf(s[1..], c);
      assert s[1..] == s[1..][..|s[1..]|];
      if j == -1 then -1
      else
        assert s[..j + 1] == [s[0]] + s[1..][..j];
        j + 1
  }

  /** `split(sep)` with a one-character separator. */
  function Split(s: string, sep: char): (parts: seq<string>)
    ensures |parts| >= 1
    ensures forall i :: 0 <= i < |parts| ==> sep !in parts[i]
    decreases |s|
  {
    if |s| == 0 then [""]
    else
      var rest := Split(s[1..], sep);
      if s[0] == sep then [""] + rest
      else [[s[0]] + rest[0]] + rest[1..]
  }

  /** `join(sep)` with a one-character separator. */
  function Join(parts: seq<string>, sep: char): string
    decreases |parts|
  {
    if |parts| == 0 then ""
    else if |parts| == 1 then parts[0]
    else parts[0] + [sep] + Join(parts[1..], sep)
  }

  /** Joining the pieces of a split gives back the original text. */
  lemma {:induction false} JoinSplit(s: string, sep: char)
    ensures Join(Split(s, sep), sep) == s
    decreases |s|
  {
    if |s| > 0 {
      var rest := Split(s[1..], sep);
      JoinSplit(s[1..], sep);
      if s[0] == sep {
        assert Split(s, sep) == [""] + rest;
        assert ([""] + rest)[1..] == rest;
      } else {
        var parts := Split(s, sep);
        assert parts == [[s[0]] + rest[0]] + rest[1..];
        if |rest| == 1 {
          assert parts == [[s[0]] + rest[0]];
        } else {
          assert parts[1..] == rest[1..];
          assert Join(rest, sep) == rest[0] + [sep] + Join(rest[1..], sep);
        }
      }
    }
  }

  /** Splitting a text whose first part holds no separator. */
  lemma {:induction false} SplitPrefix(a: string, rest: string, sep: char)
    requires sep !in a
    ensures Split(a + rest, sep) == [a + Split(rest, sep)[0]] + Split(rest, sep)[1..]
    decreases |a|
  {
    if |a| > 0 {
      var s := a + rest;
      assert s[0] == a[0] && s[1..] == a[1..] + rest;
      SplitPrefix(a[1..], rest, sep);
      assert [a[0]] + (a[1..] + Split(rest, sep)[0]) == a + Split(rest, sep)[0];
    } else {
      var parts := Split(rest, sep);
      assert a + rest == rest && a + parts[0] == parts[0];
      assert parts == [parts[0]] + parts[1..];
    }
  }

  /** Splitting a join of separator-free parts gives the parts back. */
  lemma {:induction false} SplitJoin(parts: seq<string>, sep: char)
    requires |parts| >= 1
    requires forall i :: 0 <= i < |parts| ==> sep !in parts[i]
    ensures Split(Join(parts, sep), sep) == parts
    decreases |parts|
  {
    if |parts| == 1 {
      SplitPrefix(parts[0], "", sep);
      assert parts[0] + "" == parts[0];
    } else {
      var tail := Join(parts[1..], sep);
      SplitJoin(parts[1..], sep);
      var sepTail := [sep] + tail;
      assert Join(parts, sep) == parts[0] + sepTail;
      assert sepTail[0] == sep && sepTail[1..] == tail;
      assert Split(sepTail, sep) == [""] + parts[1..];
      SplitPrefix(parts[0], sepTail, sep);
      assert parts[0] + "" == parts[0];
    }
  }

  /** Joins of parts with equal lengths have equal lengths. */
  lemma {:induction false} JoinLength(ps: seq<string>, qs: seq<string>, sep: char)
    requires |ps| == |qs|
    requires forall i :: 0 <= i < |ps| ==> |ps[i]| == |qs[i]|
    ensures |Join(ps, sep)| == |Join(qs, sep)|
    decreases |ps|
  {
    if |ps| > 1 {
      JoinLength(ps[1..], qs[1..], sep);
    }
  }

  /** Every part in lower case. */
  function LowerAll(parts: seq<string>): (r: seq<string>)
    ensures |r| == |parts|
    ensures forall i :: 0 <= i < |parts| ==> r[i] == Lower(parts[i])
  {
    seq(|parts|, i requires 0 <= i < |parts| => Lower(parts[i]))
  }

  /** Lower-casing commutes with splitting at a character that is not a letter. */
  lemma {:induction false} SplitLower(s: string, sep: char)
    requires !IsUpper(sep) && !IsLower(sep)
    ensures Split(Lower(s), sep) == LowerAll(Split(s, sep))
    decreases |s|
  {
    if |s| > 0 {
      SplitLower(s[1..], sep);
      var t := Lower(s);
      assert t[0] == LowerChar(s[0]);
      assert t[1..] == Lower(s[1..]);
      assert (t[0] == sep) == (s[0] == sep);
      var rest := Split(s[1..], sep);
      if s[0] != sep {
        assert Lower([s[0]] + rest[0]) == [t[0]] + Lower(rest[0]);
        assert LowerAll(Split(s, sep)) == [[t[0]] + Lower(rest[0])] + LowerAll(rest)[1..];
      } else {
        assert LowerAll(Split(s, sep)) == [""] + LowerAll(rest);
      }
    }
  }

  /** Length of the leading run of non-whitespace characters. */
  function RunLength(s: string): (k: nat)
    ensures k <= |s|
    ensures forall i :: 0 <= i < k ==> !IsSpace(s[i])
    ensures k < |s| ==> IsSpace(s[k])
    decreases |s|
  {
    if |s| == 0 || IsSpace(s[0]) then 0 else 1 + RunLength(s[1..])
  }

  /** A non-empty text that does not start with whitespace. */
  predicate StartsWord(w: string) {
    w != "" && !IsSpace(w[0])
  }

  /** The maximal whitespace-free runs of `s`, in order: what
      `s.split(/\s+/).filter(Boolean)` yields. */
  function Words(s: string): (ws: seq<string>)
    ensures |ws| <= |s|
    decreases |s|
  {
    var t := TrimStart(s);
    if t == "" then []
    else
      FirstRun(s);
      var k := RunLength(t);
      [t[..k]] + Words(t[k..])
  }

  /** Every word is non-empty and starts with a non-space. */
  lemma {:induction false} WordsAreWords(s: string)
    ensures forall i :: 0 <= i < |Words(s)| ==> StartsWord(Words(s)[i])
    decreases |s|
  {
    var t := TrimStart(s);
    if t != "" {
      FirstRun(s);
      var k := RunLength(t);
      var rest := Words(t[k..]);
      WordsAreWords(t[k..]);
      assert Words(s) == [t[..k]] + rest;
      forall i | 0 <= i < |Words(s)|
        ensures StartsWord(Words(s)[i])
      {
        if i > 0 {
          assert Words(s)[i] == rest[i - 1];
        }
      }
    }
  }

  /** The first run after the leading whitespace is a word, and consuming it
      shortens the text. */
  lemma FirstRun(s: string)
    requires TrimStart(s) != ""
    ensures var t := TrimStart(s);
      0 < RunLength(t) <= |t| <= |s| && StartsWord(t[..RunLength(t)])
  {
    var t := TrimStart(s);
    assert !IsSpace(t[0]);
  }

  /** Words contain no whitespace at all. */
  lemma {:induction false} WordsHaveNoSpace(s: string)
    ensures forall i, j :: 0 <= i < |Words(s)| && 0 <= j < |Words(s)[i]| ==> !IsSpace(Words(s)[i][j])
    decreases |s|
  {
    var t := TrimStart(s);
    if t != "" {
      FirstRun(s);
      var k := RunLength(t);
      WordsHaveNoSpace(t[k..]);
      WordsUnfold(s);
      RunNoSpace(t);
      ConsNoSpace(t[..k], Words(t[k..]));
    }
  }

  /** One step of `Words`: the first run after the leading whitespace, then
      the words of the rest. */
  lemma WordsUnfold(s: string)
    requires TrimStart(s) != ""
    ensures var t := TrimStart(s); var k := RunLength(t);
      Words(s) == [t[..k]] + Words(t[k..])
  {
  }

  /** The leading run has no whitespace. */
  lemma RunNoSpace(t: string)
    ensures forall j :: 0 <= j < |t[..RunLength(t)]| ==> !IsSpace(t[..RunLength(t)][j])
  {
    var k := RunLength(t);
    forall j | 0 <= j < |t[..k]|
      ensures !IsSpace(t[..k][j])
    {
      assert t[..k][j] == t[j];
    }
  }

  /** A whitespace-free text in front of whitespace-free texts. */
  lemma ConsNoSpace(w: string, rest: seq<string>)
    requires forall j :: 0 <= j < |w| ==> !IsSpace(w[j])
    requires forall i, j :: 0 <= i < |rest| && 0 <= j < |rest[i]| ==> !IsSpace(rest[i][j])
    ensures forall i, j :: 0 <= i < |[w] + rest| && 0 <= j < |([w] + rest)[i]| ==> !IsSpace(([w] + rest)[i][j])
  {
    forall i, j | 0 <= i < |[w] + rest| && 0 <= j < |([w] + rest)[i]|
      ensures !IsSpace(([w] + rest)[i][j])
    {
      if i > 0 {
        assert ([w] + rest)[i] == rest[i - 1];
      }
    }
  }

  /** Texts with the same `TrimStart` have the same words. */
  lemma {:induction false} WordsOfTrimStart(s: string, u: string)
    requires TrimStart(s) == TrimStart(u)
    ensures Words(s) == Words(u)
  {
  }

  /** Leading whitespace contributes no word. */
  lemma {:induction false} WordsSkipSpace(c: char, b: string)
    requires IsSpace(c)
    ensures Words([c] + b) == Words(b)
  {
    assert ([c] + b)[1..] == b;
    WordsOfTrimStart([c] + b, b);
  }

  /** A text starting with a non-space character begins with its first run. */
  lemma {:induction false} WordsStep(s: string)
    requires StartsWord(s)
    ensures Words(s) == [s[..RunLength(s)]] + Words(s[RunLength(s)..])
  {
    assert TrimStart(s) == s;
  }

  /** `RunLength` is the length of any non-whitespace prefix that is
      followed by whitespace or by nothing. */
  lemma {:induction false} RunLengthAt(s: string, k: nat)
    requires k <= |s|
    requires forall i :: 0 <= i < k ==> !IsSpace(s[i])
    requires k < |s| ==> IsSpace(s[k])
    ensures RunLength(s) == k
  {
  }

  /** A whitespace-free text is one word, or none when it is empty. */
  lemma {:induction false} WordsOfRun(a: string)
    requires forall i :: 0 <= i < |a| ==> !IsSpace(a[i])
    ensures Words(a) == if a == "" then [] else [a]
  {
    if a == "" {
      WordsOfEmpty();
    } else {
      RunLengthAt(a, |a|);
      WordsOfWholeRun(a);
    }
  }

  /** The empty text has no words. */
  lemma WordsOfEmpty()
    ensures Words("") == []
  {
    assert TrimStart("") == "";
  }

  /** A text that is one run is its only word. */
  lemma {:induction false} WordsOfWholeRun(a: string)
    requires StartsWord(a) && RunLength(a) == |a|
    ensures Words(a) == [a]
  {
    WordsStep(a);
    assert a[|a|..] == "";
    WordsOfEmpty();
    assert a[..|a|] == a;
  }

  /** A whitespace-free run followed by a whitespace character is split off
      as one word: together with `WordsOfRun` and `WordsSkipSpace` this pins
      `Words` down to the whitespace-separated runs of the text, in order. */
  lemma {:induction false} WordsCons(a: string, c: char, b: string)
    requires forall i :: 0 <= i < |a| ==> !IsSpace(a[i])
    requires IsSpace(c)
    ensures Words(a + [c] + b) == Words(a) + Words(b)
  {
    if a == "" {
      WordsAfterSpace(a + [c] + b, c, b);
      WordsOfEmpty();
    } else {
      WordsAfterRun(a + [c] + b, a, [c] + b);
      WordsAfterSpace([c] + b, c, b);
      RunLengthAt(a, |a|);
      WordsOfWholeRun(a);
    }
  }

  /** `WordsSkipSpace` for a text given as a whole. */
  lemma {:induction false} WordsAfterSpace(s: string, c: char, b: string)
    requires s == [c] + b && IsSpace(c)
    ensures Words(s) == Words(b)
  {
    WordsSkipSpace(c, b);
  }

  /** A non-empty whitespace-free run followed by whitespace is the first word. */
  lemma {:induction false} WordsAfterRun(s: string, a: string, rest: string)
    requires s == a + rest && a != "" && rest != "" && IsSpace(rest[0])
    requires forall i :: 0 <= i < |a| ==> !IsSpace(a[i])
    ensures Words(s) == [a] + Words(rest)
  {
    assert s[0] == a[0];
    WordsStep(s);
    assert forall i :: 0 <= i < |a| ==> s[i] == a[i];
    assert s[|a|] == rest[0];
    RunLengthAt(s, |a|);
    assert s[..|a|] == a;
    assert s[|a|..] == rest;
  }

  /** Two whitespace-free runs around one whitespace character are two words. */
  lemma {:induction false} WordsOfTwo(first: string, sep: char, last: string)
    requires first != "" && last != "" && IsSpace(sep)
    requires forall i :: 0 <= i < |first| ==> !IsSpace(first[i])
    requires forall i :: 0 <= i < |last| ==> !IsSpace(last[i])
    ensures Words(first + [sep] + last) == [first, last]
  {
    RunLengthAt(first, |first|);
    RunLengthAt(last, |last|);
    WordsOfWholeRun(first);
    WordsOfWholeRun(last);
    WordsCons(first, sep, last);
    PairConcat(Words(first + [sep] + last), Words(first), Words(last), first, last);
  }

  lemma PairConcat<T>(xs: seq<T>, ys: seq<T>, zs: seq<T>, y: T, z: T)
    requires xs == ys + zs && ys == [y] && zs == [z]
    ensures xs == [y, z]
  {
  }

  /** A text has no words exactly when it is blank. */
  lemma WordsOfBlank(s: string)
    ensures |Words(s)| == 0 <==> IsBlank(s)
  {
    TrimStartBlank(s);
  }

  /** The first word starts at the first non-whitespace character. */
  lemma FirstWordStart(s: string, j: nat)
    requires j < |s| && !IsSpace(s[j])
    requires forall i :: 0 <= i < j ==> IsSpace(s[i])
    ensures |Words(s)| > 0 && Words(s)[0][0] == s[j]
  {
    var t := TrimStart(s);
    assert |s| - |t| == j;
  }

  /** `indexOf` finds nothing later than an occurrence. */
  lemma IndexOfFirst(s: string, c: char, i: int)
    requires 0 <= i < |s| && s[i] == c
    ensures 0 <= IndexOf(s, c) <= i
  {
  }

  /** `a < b` on strings: lexicographic order by character. */
  predicate LexLess(a: string, b: string)
    decreases |a|
  {
    if |a| == 0 then |b| > 0
    else if |b| == 0 then false
    else if a[0] != b[0] then a[0] < b[0]
    else LexLess(a[1..], b[1..])
  }

  /** Comparing two texts whose first parts have the same length. */
  lemma {:induction false} LexLessAppend(a: string, x: string, b: string, y: string)
    requires |a| == |b|
    ensures LexLess(a + x, b + y) <==> LexLess(a, b) || (a == b && LexLess(x, y))
    decreases |a|
  {
    if |a| > 0 {
      assert (a + x)[0] == a[0] && (b + y)[0] == b[0];
      assert (a + x)[1..] == a[1..] + x && (b + y)[1..] == b[1..] + y;
      LexLessAppend(a[1..], x, b[1..], y);
      if a[0] == b[0] && a[1..] == b[1..] {
        assert a == b;
      }
    } else {
      assert a + x == x && b + y == y;
    }
  }
}

=== FILE: types.dfy ===
/** The records the web client exchanges with its REST backend
    (src/api/types.ts), reduced to the fields the modelled code reads. */
module Types {

  /** JavaScript `null`/`undefined` versus a present value. */
  datatype Option<+T> = None | Some(value: T) {

    predicate IsFailure() {
      None?
    }

    function PropagateFailure<U>(): Option<U>
      requires None?
    {
      None
    }

    function Extract(): T
      requires Some?
    {
      value
    }

    function GetOr(default: T): T {
      if Some? then value else default
    }
  }

  /** A request field that may be left out (`undefined`), sent as `null`, or carry a value. */
  datatype Nullable<+T> = Undefined | Null | Val(value: T)

  datatype Role = Client | Owner

  datatype BookingStatus = Pending | Confirmed | Cancelled | Completed

  /** The status as spelled on the wire. */
  function StatusText(s: BookingStatus): string {
    match s
    case Pending => "PENDING"
    case Confirmed => "CONFIRMED"
    case Cancelled => "CANCELLED"
    case Completed => "COMPLETED"
  }

  /** Reads a status back from its wire spelling. */
  function ParseStatus(raw: string): (r: Option<BookingStatus>)
    ensures r.Some? ==> StatusText(r.value) == raw
    ensures r.None? ==> forall s :: StatusText(s) != raw
  {
    if raw == "PENDING" then Some(Pending)
    else if raw == "CONFIRMED" then Some(Confirmed)
    else if raw == "CANCELLED" then Some(Cancelled)
    else if raw == "COMPLETED" then Some(Completed)
    else None
  }

  /** Distinct statuses are spelled differently, so parsing a spelling
      gives back its status. */
  lemma StatusTextRoundTrip()
    ensures forall s :: ParseStatus(StatusText(s)) == Some(s)
  {
    assert "CANCELLED"[1] != "COMPLETED"[1];
  }

  datatype Gender = Male | Female | OtherGender | PreferNotToSay

  datatype NotificationChannel = WhatsApp | Sms | EmailChannel

  /** The signed-in identity. `phone` is optional and may be `null`. */
  datatype User = User(
    id: string,
    fullName: string,
    username: string,
    email: string,
    phone: Option<string>,
    role: Role,
    emailVerified: bool,
    phoneVerified: bool,
    gender: Option<Gender>,
    birthDate: Option<string>,
    notificationChannel: Option<NotificationChannel>,
    marketingOptIn: Option<bool>,
    createdAt: string,
    updatedAt: string)

  /** The owner's business record, attached to the owner's profile. */
  datatype Barbershop = Barbershop(
    id: string,
    name: string,
    address: Option<string>,
    description: Option<string>,
    openTime: string,
    closeTime: string,
    slotMinutes: int)

  datatype Service = Service(id: string, name: string, durationMin: int, active: bool)

  datatype Booking = Booking(
    id: string,
    clientId: string,
    serviceId: string,
    startTime: string,
    endTime: string,
    status: BookingStatus,
    notes: Option<string>)

  /** JavaScript truthiness of an optional string: present and non-empty. */
  predicate Truthy(s: Option<string>) {
    s.Some? && s.value != ""
  }
}
